=== FILE: README.md ===
# Project manager back end: notifications, roles, registration, messages, files

A Dafny model of the request handlers at the core of a small Express/MongoDB
project-management server:

- the notification engine: the two-stage gate of `createNotification`, the
  recipient resolution and fan-out of `sendProjectNotifications`, and the
  `getNotifications` and `markAsRead` handlers;
- the per-project notification settings (get-or-create and upsert);
- project-scoped user roles (upsert, delete, list) with the schema's
  default role, and role strings stored unvalidated;
- registration with and without an invite token, and login;
- project creation with owner-first member de-duplication, and the 404
  behaviour of get, update and delete;
- direct-message queries: one conversation, mark-as-read, unread count, and
  the latest message per conversation partner;
- the upload route's extension classifier, allowed-format list, size limit
  and missing-file check.

Every MongoDB collection is a sequence of records in natural order. A
`findOne`, `findOneAndUpdate` or `findOneAndDelete` acts on the first
matching record (`Base.FindFirst`). Fresh ids come from a `nextId` counter
kept with each store. A handler is a pure function from a store and a
request to a new store and a reply (`Base.Reply`: a status and a body, or a
status and an error message). Every `io.emit` is an event appended to an
output log.

The model is split into modules that follow the source files:

- `Base`: the shared pieces. It defines ids, `Option`, replies, `Filter`,
  `FindFirst` and `RemoveAt`.
- `Dedup`: `Array.from(new Set(xs))` over values that compare by equality.
- `Sorting`: `.sort({ createdAt: ±1 })`.
- `Settings`: the NotificationSettings model and its controller.
- `Fanout`: the per-recipient loop inside one `try`.
- `Notifications`: the Notification model and the notification controller.
- `Roles`: the ProjectUserRole model and its controller.
- `Projects`: the project controller.
- `Messages`: the message controller.
- `Files`: the upload route.
- `Auth`: the registration and login routes.

Conventions:

- A JavaScript value that may be `undefined` is an `Option`.
  `Base.Missing` is the falsy test `!x` on an optional string: absent or
  empty.
- A notification value `Ref` stands for any value Mongoose casts to an
  ObjectId on the `user` and `sender` paths, including a 24-hex id string
  such as the `userId` a JWT carries. A `Text` value never holds such a
  string, so a `Text` on either path is a value that does not cast.
- Ids are natural numbers. Where the source compares object ids through
  `toString()` or a database query, the model compares them by equality.
  A JavaScript `Set` of ObjectId objects compares them by reference
  instead, so it drops no repeated id; the model follows that too (see
  "Findings").
- The database layer is taken to drop update keys whose value is
  `undefined`, so an omitted field in an update leaves the stored value
  alone.
- Time is an input. `now` stands for `Date.now` at the time of a create, and
  `cutoff` for the one-month-ago date of the recent-conversations query. In
  `sendProjectNotifications` every create reads the clock for itself:
  `clock(id)` is the reading of the create that would take that id.
- A create in `sendProjectNotifications` can also fail for reasons outside
  the model (a refused write, a lost connection). `rejected` is the set of
  creates that fail, each named by the id it would take, so the same
  recipient can succeed at one position and fail at another.
- The order the database gives to records with equal sort keys is fixed as
  input order: the sort is a stable insertion sort.
- `Object.values(conversations)` lists the entries in insertion order,
  because object-id keys are never array indices. So the
  recent-conversations list follows the newest-first input.

## Model

| member | source | states |
|---|---|---|
| Dedup.DedupElements | controllers/projectController.js:10 | `Array.from(new Set(xs))` holds every element of the input and no other, each exactly once |
| Dedup.DedupOrder | controllers/projectController.js:10 | the de-duplicated list keeps the elements in the order of their first occurrence in the input |
| Dedup.DedupHead | controllers/projectController.js:10 | whatever follows it, the first element of the input leads the de-duplicated list |
| Settings.FindIndex | controllers/notificationSettingsController.js:7 | `findOne({ projectId })` finds the first record of the project, and finds none exactly when no record names it |
| Settings.GetSettings | controllers/notificationSettingsController.js:7-12 | an existing record is returned and the store is untouched; otherwise a record with four empty lists is appended and returned; at most one record per project is kept |
| Settings.GetSettingsIdempotent | controllers/notificationSettingsController.js:7-11 | a second `getSettings` for the same project creates nothing and returns the same record |
| Settings.UpdateSettings | controllers/notificationSettingsController.js:23-27 | the upsert: the returned record carries every list the body names and the old (or default) value of every other; other projects' records stay as they were; at most one record per project is kept, and it is the returned one |
| Settings.UpdateSettingsLookup | controllers/notificationSettingsController.js:23-27 | after the upsert a lookup of the project finds the returned record, and a lookup of any other project finds what it found before |
| Fanout.FanOut | controllers/notificationController.js:87-100 | the creates run in recipient order with ids counting up; the run stops at the first create that fails, which is the only way it can be cut short |
| Fanout.FanOutExtensional | controllers/notificationController.js:87-97 | the outcome of the loop depends only on what each create does |
| Notifications.Build | models/Notification.js:4-15 | `Notification.create` succeeds exactly when `user` and `sender` are both object ids and any `read` or `createdAt` in the document casts to a Boolean or a date; `read` and `createdAt` take the cast document values, else `false` and the current time; the record carries the document's `user` and `sender`, and its value or its absence on each of `type`, `message`, `entityId`, `entityType`, `taskTitle`, `title`, `projectName` and `newRole` |
| Notifications.BaseDraftFields | controllers/notificationController.js:61 | the base document holds the call's type, message, entityId and entityType, each absent exactly when the call leaves it undefined |
| Notifications.BaseDraftAbsent | controllers/notificationController.js:61 | the base document carries no `sender` and none of the four action-specific paths |
| Notifications.SenderDraftFields | controllers/notificationController.js:61 | the document with `sender: fromUser` added always casts, validates exactly when a sender is known, and keeps the call's values |
| Notifications.DraftForFields | controllers/notificationController.js:87-94 | in the per-recipient document, `...extra` spread last wins on `message`, `entityId` and `entityType`, and alone supplies `sender` and the four action-specific paths |
| Notifications.BaseDraft | controllers/notificationController.js:61 | the document handed to `create` names the recipient as `user`, carries the type when one is given, and never carries a `sender` |
| Notifications.FindPreference | controllers/notificationController.js:38-40 | `teamMemberPreferences.find(...)` returns the first entry for the member, and nothing exactly when no entry names the member |
| Notifications.CreateNotification | controllers/notificationController.js:31-68 | as written, every call leaves the store and the output log unchanged and returns null, whatever the gate decides |
| Notifications.CreateWithSenderWellFormed | controllers/notificationController.js:61 | a create with the sender recorded keeps the store's ids distinct and below the counter |
| Notifications.SenderlessCreateLost | controllers/notificationController.js:61 | with no settings and a known sender the gate passes, yet the call as written stores nothing, while the same call with the sender recorded stores one notification |
| Notifications.CreateNotificationWithSender | controllers/notificationController.js:31-68 | with `fromUser` as the sender, a notification is created and emitted exactly when the gate passes; it goes to the recipient with the call's type, message, entityId and entityType, is unread, is stamped with the current time, carries none of the action-specific paths, and takes the next id; otherwise nothing changes |
| Notifications.MuteIsPerSender | controllers/notificationController.js:37-45 | a recipient whose first preference entry for the sender holds `false` gets nothing from that sender, yet still gets a notification from a member with no preference entry |
| Notifications.OnlyFalseMutes | controllers/notificationController.js:37-45 | a preference entry holding anything other than `false` does not mute |
| Notifications.TypeGate | controllers/notificationController.js:48-59 | status, message, task and comment consult statusUpdates, messages, tasksAdded and comments; the gate suppresses only on an explicit `false`; any other type, or no settings at all, always passes |
| Notifications.StoredSettingsNeverSuppress | models/NotificationSettings.js:3-27 | a stored settings record holds arrays instead of boolean flags and no `teamMemberPreferences`, so against it the gate never suppresses |
| Notifications.RecipientsByType | controllers/notificationController.js:77-85 | as written, statusUpdates and tasksAdded reach the statusUpdates list followed by the tasksAdded list, each id as often as the two lists hold it together; messages and comments reach their own list as stored; any other type reaches nobody |
| Notifications.DedupedRecipientsByType | controllers/notificationController.js:80 | the corrected recipients for statusUpdates and tasksAdded hold each id once; they are the same users the code reaches; other types are unaffected |
| Notifications.SendProjectNotifications | controllers/notificationController.js:71-101 | no settings record means no change and no event; otherwise the store gains, after its existing documents, one record per event; the recipients get records in list order; the run stops early exactly when a create fails, and then the create for the next recipient, with the next id, is the one that failed |
| Notifications.AttemptRecord | controllers/notificationController.js:88-95 | a successful create stores the given id; `user`, `type`, `message`, `entityId`, `entityType`, `read` and `createdAt` come from the call (recipient, type, message, entity, unread, and that create's own clock reading) unless `extra` carries those keys, in which case the cast `extra` value wins; `sender`, `taskTitle`, `title`, `projectName` and `newRole` come from `extra` alone, and `extra` must carry a sender |
| Notifications.RunRecords | controllers/notificationController.js:87-95 | every record a run creates is the record for its recipient as AttemptRecord describes it, with ids counting up from where the run starts and each stamped with its own create's clock reading |
| Notifications.SendRecords | controllers/notificationController.js:87-95 | every record a fan-out stores after the existing documents is the record for the recipient at the same position of the as-written recipient list, with ids handed out in recipient order and each stamped with its own create's clock reading; `extra` overrides `user`, `type`, `message`, `entityId`, `entityType`, `read` and `createdAt` when it carries them, and supplies the sender and the four action-specific paths |
| Notifications.Deliver | controllers/notificationController.js:87-97 | a run's records are stored after the existing documents in creation order, with one `notification:new` event each |
| Notifications.DeliverWellFormed | controllers/notificationController.js:87-97 | storing records numbered on from the counter keeps ids distinct and below the counter |
| Notifications.SendWellFormed | controllers/notificationController.js:71-101 | a fan-out keeps the store's ids distinct and fresh |
| Notifications.NoSenderNoNotifications | models/Notification.js:5 | without a `sender` in `extra`, the first create fails validation, so the fan-out stores nothing and emits nothing |
| Notifications.UncastableNoNotifications | models/Notification.js:10-11 | a `read` or `createdAt` in `extra` that does not cast makes the first create throw, so the fan-out stores nothing and emits nothing |
| Notifications.SendProjectNotificationsDeduped | controllers/notificationController.js:71-101 | the corrected fan-out: the same handler over the corrected recipients; no settings record means no change; otherwise the recipients get records in list order; the run stops early exactly when a create fails, and then the create for the next recipient, with the next id, is the one that failed |
| Notifications.DedupedNotifiesOnce | controllers/notificationController.js:78-80 | in the corrected fan-out for statusUpdates or tasksAdded, no two stored records name the same user unless `extra` sets `user` |
| Notifications.DuplicateRecipientNotifiedTwice | controllers/notificationController.js:80 | a user listed in both statusUpdates and tasksAdded gets two notifications from the code as written and one from the corrected fan-out |
| Notifications.ByUserIgnored | controllers/notificationController.js:71 | the actor passed as `byUser` never changes the outcome, so the actor is not excluded from the recipients |
| Notifications.GetNotifications | controllers/notificationController.js:8 | exactly the caller's notifications, each as often as stored, newest `createdAt` first |
| Notifications.FindById | controllers/notificationController.js:18 | `findByIdAndUpdate` finds the first document with the id, and finds none exactly when no document has it |
| Notifications.MarkAsRead | controllers/notificationController.js:18-24 | 404 "Notification not found" with no change exactly when the id names no notification; otherwise that notification, and only it, becomes read and is returned |
| Notifications.MarkAsReadIdempotent | controllers/notificationController.js:18-24 | marking the same notification twice gives the same store and reply as marking it once |
| Roles.ParseRole | models/ProjectUserRole.js:6-10 | a role string reads as one of the four enum roles exactly when it is one of their spellings, and as another role otherwise; it is stored back as the same string |
| Roles.ParseRoleName | models/ProjectUserRole.js:6-10 | reading back a stored role's string gives the role that was written |
| Roles.NewEntry | models/ProjectUserRole.js:4-9 | a new entry names its project and user, stores the given role string, and takes the role `viewer` when none is given |
| Roles.FindPair | controllers/projectUserRoleController.js:9-10 | the first entry for (user, project), and none exactly when no entry names the pair |
| Roles.SetUserRole | controllers/projectUserRoleController.js:9-13 | after the upsert a lookup of the pair finds the returned entry, with the requested role string, in the enum or not; an existing entry is updated in place and nothing else moves; otherwise exactly one entry is appended; one entry per pair is kept |
| Roles.SetUserRoleOthers | controllers/projectUserRoleController.js:9-13 | setting a role leaves the lookup of every other (user, project) pair as it was |
| Roles.SetUserRoleIdempotent | controllers/projectUserRoleController.js:9-13 | repeating the upsert with the same arguments changes nothing further |
| Roles.RemoveUserRole | controllers/projectUserRoleController.js:36-37 | an absent pair leaves the store as it was; otherwise exactly the first matching entry is removed |
| Roles.RemoveUserRoleClears | controllers/projectUserRoleController.js:36 | with one entry per pair, no entry for the pair remains after removal |
| Roles.RemoveUserRoleKeepsOthers | controllers/projectUserRoleController.js:36 | with one entry per pair, removal keeps every entry for another pair and no entry for the removed one |
| Roles.RemoveUserRoleOnePerPair | controllers/projectUserRoleController.js:36 | removal keeps one entry per pair |
| Roles.GetProjectRoles | controllers/projectUserRoleController.js:24 | exactly the project's entries, each as often as stored |
| Roles.RemoveUserRoleLeavesSecond | controllers/projectUserRoleController.js:36-37 | when a pair has a second entry, which the schema does not prevent, a lookup after removal finds that second entry's role; so one entry per pair is needed for removal to clear the pair |
| Projects.OwnerOnly | controllers/projectController.js:6-10 | without a member list in the body, the owner is the only member |
| Projects.CreateProject | controllers/projectController.js:4-16 | 201 with a new project that the authenticated user owns, whatever the body says; the owner heads the member list; members are distinct, and they are the owner plus the body's members; the project is appended with the next id |
| Projects.CreatedMemberOrder | controllers/projectController.js:10 | members keep the order of their first occurrence in the owner-then-body list |
| Projects.GetProject | controllers/projectController.js:30-38 | 404 "Project not found" exactly when no project has the id; otherwise a stored project with that id |
| Projects.UpdateProject | controllers/projectController.js:41-54 | 404 and no change exactly when no project has the id; otherwise the named fields are set on that project as given, its owner is kept, other projects stay as they were, and the updated project is returned |
| Projects.DeleteProject | controllers/projectController.js:57-65 | 404 and no change exactly when no project has the id; otherwise "Project deleted", and exactly the first project with the id is removed while the rest keep their order |
| Projects.DeleteRemovesOnlyTarget | controllers/projectController.js:59 | with distinct ids, after deletion the store holds exactly the projects with another id |
| Messages.GetConversation | controllers/messageController.js:38-44 | exactly the messages between the two users in either direction, each as often as stored, oldest first |
| Messages.MarkAsRead | controllers/messageController.js:62-65 | only the `read` flag changes; every message from the sender to the caller is read afterwards; every other message is unchanged |
| Messages.MarkAsReadIdempotent | controllers/messageController.js:62-65 | marking a conversation read twice is the same as marking it once |
| Messages.MarkAsReadClearsUnread | controllers/messageController.js:62-65 | after marking, no unread message left for the caller comes from that sender |
| Messages.GetUnreadCount | controllers/messageController.js:77-80 | the count is the number of messages addressed to the caller and not yet read |
| Messages.GroupFrom | controllers/messageController.js:110-120 | the grouping pass keeps at most one entry per partner; each entry holds a message exchanged with that partner, and skips partners already seen |
| Messages.GroupCovers | controllers/messageController.js:110-120 | every partner of a message in the input, unless already seen, gets an entry |
| Messages.GroupNewest | controllers/messageController.js:105-120 | on newest-first input, the first message kept for a partner is at least as new as every message with that partner |
| Messages.GroupOrder | controllers/messageController.js:105-122 | on newest-first input the entries also run newest first |
| Messages.RecentConversationsPartners | controllers/messageController.js:96-122 | one entry per distinct partner; a partner has an entry exactly when the caller exchanged a message with them at or after the cutoff; each entry's message is such a message |
| Messages.RecentConversationsNewest | controllers/messageController.js:105-122 | each entry holds the newest message with its partner inside the window, and the entries run from the most recent conversation to the least |
| Files.SplitDot | routes/files.js:19 | `split('.')` yields at least one piece, no piece contains '.', and a name without '.' is its own single piece |
| Files.AfterLastDot | routes/files.js:19 | the result is a final segment of the name without '.'; it is shorter than the name exactly when the name contains '.', and then a '.' precedes it |
| Files.SplitPopIsAfterLastDot | routes/files.js:19 | `split('.').pop()` is the text after the last '.' |
| Files.Extension | routes/files.js:19 | the extension contains no '.' and no upper-case letter, and is no longer than the name |
| Files.ExtensionShape | routes/files.js:19 | the extension is the lower-cased text after the last '.', and the whole lower-cased name when there is no '.' |
| Files.ListsDisjoint | routes/files.js:21-26 | no extension is in two of the lists, so the order of the `else if` chain decides nothing |
| Files.ClassifyRaw | routes/files.js:36-37 | document, archive and other extensions, and only those, map to `raw` |
| Files.ClassifyVideo | routes/files.js:38-41 | audio and video extensions, and only those, map to `video` |
| Files.ClassifyImage | routes/files.js:42-43 | image extensions, and only those, map to `image` |
| Files.ClassifyAuto | routes/files.js:27-35 | an extension maps to `auto` exactly when it is in none of the six concatenated lists |
| Files.Params | routes/files.js:45-49 | the folder is always `project_files` and the allowed formats are the six lists; the resource type is `auto` exactly when the extension is not an allowed format |
| Files.Upload | routes/files.js:52-66 | a file over 20971520 bytes never reaches the handler; no file, or no stored path, gives 400 "No file uploaded" and no change; otherwise 201 with a record of the name, URL, uploader and time, appended with a fresh id |
| Files.ListFiles | routes/files.js:77 | every stored file, each as often as stored, most recent upload first |
| Auth.AddToSet | routes/auth.js:27 | `$addToSet` adds the id once and only if it is absent; no other element's count changes |
| Auth.PendingInvite | routes/auth.js:22 | the first invite with the token and status pending, and none exactly when no such invite exists |
| Auth.TeamIndex | routes/auth.js:27 | `findById` finds the first team with the id, and none exactly when no team has it |
| Auth.AddTeamMember | routes/auth.js:27 | the team with the id, if any, gains the member as a set; no other team changes |
| Auth.JoinProjects | routes/auth.js:38-41 | every project of the team gains the member as a set; every other project is unchanged |
| Auth.JoinRoles | routes/auth.js:40-47 | the per-project role upserts keep one entry per pair |
| Auth.JoinRolesKeepsViewer | routes/auth.js:40-47 | a viewer role, once set, survives the remaining upserts |
| Auth.JoinRolesViewer | routes/auth.js:38-47 | after the upserts the user is a viewer of every project of the team |
| Auth.JoinRolesOthers | routes/auth.js:40-47 | the upserts touch no role of another user and no role of a project outside the team |
| Auth.RegisterAsWritten | routes/auth.js:13-69 | as written, with the Task schema of models/User.js: a missing field gives 400 "Name, email and password required"; any other request fails in `User.create` and gets 400 "Email already exists"; nothing is ever written |
| Auth.FreshEmailRefused | routes/auth.js:17 | a request with a fresh email and no invite is refused as "Email already exists" as written, and creates the user in the corrected route |
| Auth.Register | routes/auth.js:13-69 | the corrected route, with a user schema whose email is unique: a missing name, email or password gives 400 and no change; a taken email gives 400 "Email already exists" and no change; 201 "User created" exactly when the fields are present, the email is free and any token matches a pending invite; every failure is a 400 |
| Auth.RegisterBadToken | routes/auth.js:17-25 | a token that matches no pending invite gives 400, yet the new user persists with no team or role, and nothing else changes |
| Auth.RegisterWithInvite | routes/auth.js:21-51 | the invite found becomes accepted; the user joins with the invite's team and the role `member`; the team's room hears `team:memberAdded` |
| Auth.RegisterJoinsTeam | routes/auth.js:27-32 | after invite registration the user is in the invite's team exactly once, and no other team changes |
| Auth.RegisterJoinsProjects | routes/auth.js:38-47 | after invite registration every project of the team lists the user, who is its viewer whatever role they had; other projects are unchanged |
| Auth.RegisterWithoutInvite | routes/auth.js:55-65 | without a token a team "<name>'s Team" is created, owned by the user as its only member; the user becomes its admin; invites, projects, roles and events are unchanged |
| Auth.RegisterWellFormed | routes/auth.js:13-69 | registration keeps every user id and every team and project member below the id counter |
| Auth.UserByEmail | routes/auth.js:75 | `findOne({ email })` finds the first user with the email, and none exactly when no user has it |
| Auth.Login | routes/auth.js:72-81 | a missing email or password gives 400; a token is issued exactly when the first user with the email has a password that matches, and it is issued for that user |
| Auth.LoginFailuresAlike | routes/auth.js:74-78 | an unknown email and a wrong password get the same 400 "Invalid credentials" |

## Left out

- The socket.io transport is left out. Each `io.emit` is only an event appended to an output log. There are no rooms or sessions.
- bcrypt and JWT are foreign cryptography. The password hash is an input to `Auth.Register`. `bcrypt.compare` is the parameter `matches` of `Auth.Login`. The signed token is represented by the id of the user it is issued for.
- The `/me` route of routes/auth.js is left out. It only verifies a JWT and reads one user.
- `populate(...)` is left out, and so are its failure modes. Every populated reference names the model `User`, which no model file among the sources registers (models/User.js registers `Task`), and `members` is not a path of models/Project.js. Depending on the Mongoose version and on models registered elsewhere, such a populate throws and the handler answers 500. The handlers whose modelled answer assumes that populate succeeds are `getProjectById` (Projects.GetProject), `getConversation` (Messages.GetConversation), `getRecentConversations` (Messages.RecentConversations), the role listing (Roles.GetProjectRoles), and the upload and listing routes of routes/files.js (Files.Upload, Files.ListFiles).
- Messages.RecentConversationsPartners: a message whose sender or receiver no longer exists populates that reference to null. controllers/messageController.js:113-114 then reads `._id` of null, which throws, and `getRecentConversations` answers 500. The model assumes every reference resolves; the same holds for Messages.RecentConversationsNewest.
- The 500 and 400 catch paths that answer a database or driver failure are left out. There is one exception: in `sendProjectNotifications` the failed creates are the `rejected` set of ids, because there a failure changes what is stored.
- Inputs are typed, so no handler is modelled on malformed request input, and the catch paths such input reaches are left out. A route parameter that is not a valid ObjectId throws a CastError: `getProjectById` and `deleteProject` answer 500 (controllers/projectController.js:35-36, 62-63), `updateProject` answers 400 (:51-52), the role routes answer 400 (controllers/projectUserRoleController.js:15-16, 26-27, 38-39), and `markAsRead` answers 400 (controllers/notificationController.js:25-26). A `members` in the project body that is not an array makes `members.map` throw at controllers/projectController.js:10, and `createProject` answers 400 (:14-15). Ids in the model are numbers, and every list is a sequence.
- `getProjects` is left out. It returns the whole collection, with no logic beyond the query.
- `sendMessage` is not among the modelled handlers. Messages are taken as already stored.
- Date arithmetic is left out. The one-month-ago cutoff and every `Date.now` are inputs.
- multer and Cloudinary are left out. What reaches the upload handler is an `IncomingFile` with an optional stored path. multer's own response to a file over the limit is represented only by the `TooLarge` outcome.
- Auth.Register: the corrected route assumes a user schema with a unique `email`. No schema among the source files declares one, and models/User.js compiles a Task schema (see "Findings"). Under that assumption the catch answering "Email already exists" is reached for an email in use, and for no other failure before the first write.
- Auth.Login: the lookup is modelled over the user records the corrected Auth.Register stores. With models/User.js as given, the query runs against the Task model, and what it then returns depends on how the Mongoose version treats the unknown `email` path.
- Roles.SetUserRole: an omitted role is taken to be dropped from the update, so an existing entry keeps its role and a new entry takes the default. This holds only if the database layer strips `undefined` update keys instead of writing null. The role string itself is stored unvalidated: `findOneAndUpdate` runs no validators unless `runValidators` is set, so the enum is not enforced.
- Projects.UpdateProject: an omitted `name`, `description` or `members` is taken to be dropped from the update, leaving the stored value. This holds only if the database layer strips `undefined` update keys instead of writing null.
- Notifications.Build: a value on `user` or `sender` that Mongoose casts to an ObjectId is written `Ref`, whatever its JavaScript form (see the conventions). The model has no id-string form, so a `Text` there always fails the create. An `_id` key in the document is not modelled, and the record always takes the counter's id. A caller's `_id` in `extra` would give every record that id, so the second create would fail on the duplicate key. A `createdAt` given as a date string is treated as not castable, because JavaScript's date parser is not modelled. The string paths keep the value as given: Mongoose's conversion of a number, a boolean or an id to its string form is not modelled.
- Notifications.AttemptRecord: the id it states is the counter's, which an `_id` in `extra` would replace (see Notifications.Build).
- Notifications.RunRecords: the id it states is the counter's, which an `_id` in `extra` would replace (see Notifications.Build).
- Notifications.SendRecords: the id it states is the counter's, which an `_id` in `extra` would replace (see Notifications.Build).
- models/Message.js is not part of this model. The message record is inferred from the fields controllers/messageController.js reads and writes, including a boolean `read`.
- Settings.UpdateSettings: the body is modelled as the four lists of the schema. Keys outside the schema, which mongoose drops, are not modelled.
- Files.Extension: `toLowerCase` is modelled on the ASCII letters only.
- models/User.js declares a Task schema rather than a user schema. The user record is modelled from the fields routes/auth.js writes.
- The Team model file is not part of this model. A team is modelled from the fields routes/auth.js writes.
- Projects.CreateProject: models/Project.js declares no `members` path. Under Mongoose's default strict mode, `new Project({ ..., members })` at controllers/projectController.js:11 discards the list, so the stored project would have no members. The model stores the members as the handler builds them. What it states about members holds only if the schema declares the path or strict mode is off.
- Projects.UpdateProject: for the same reason, `members` in the update at controllers/projectController.js:46 is discarded under strict mode, and only `name` and `description` would change. The model sets the members as the handler intends.
- Auth.JoinProjects: models/Project.js declares no `team` path either. Whether `Project.find({ team })` at routes/auth.js:38 filters on it depends on the `strictQuery` setting; when the key is stripped, every project matches. Under strict mode the `$addToSet` of `members` at routes/auth.js:41 is discarded. The model selects the team's projects and adds the member, as the route's code reads. The same assumption underlies Auth.JoinRoles, Auth.JoinRolesViewer and Auth.RegisterJoinsProjects.

## Findings

| source | as written | input that shows it | evidently intended | confidence | as-written member | corrected member |
|---|---|---|---|---|---|---|
| controllers/notificationController.js:80 | the recipients are `Array.from(new Set([...statusUpdates, ...tasksAdded]))` over ObjectId objects. A `Set` compares objects by reference, so no id is dropped, and a user listed twice is notified twice. | settings with statusUpdates = [5] and tasksAdded = [5], type statusUpdates, a sender in `extra`: two notifications for user 5 | each user notified once, the ids compared by value (e.g. through `toString()`, as controllers/projectController.js:10 does) | medium, not executed | Notifications.SendProjectNotifications, Notifications.DuplicateRecipientNotifiedTwice | Notifications.SendProjectNotificationsDeduped, Notifications.DedupedNotifiesOnce |
| routes/auth.js:17 with models/User.js:3-15 | `User` is the model that models/User.js exports, but that file compiles a Task schema with `title` and `project` required. `User.create({ name, email, password })` always fails validation, and the catch answers "Email already exists". | any request with a name, an email and a password, e.g. a fresh email and no invite token | a user schema with a unique `email`, so that registration creates the user | low, not executed | Auth.RegisterAsWritten, Auth.FreshEmailRefused | Auth.Register |
| controllers/notificationController.js:61 with models/Notification.js:5 | `createNotification` creates `{ user, type, message, entityId, entityType }`, but the schema marks `sender` required. Every create fails validation, the catch returns null, and nothing is stored or emitted. | any call that passes the gate, e.g. no settings and `fromUser` = 7 | the notification is stored and emitted with the sender (`fromUser`) recorded | medium, not executed | Notifications.CreateNotification | Notifications.CreateNotificationWithSender |

=== FILE: auth.dfy ===
/** Registration and login (routes/auth.js): a small state machine over
    users, teams, invites, projects and project roles. Password hashing,
    password comparison and token signing are left abstract: the hash is an
    input and the comparison a function parameter. */
module Auth {
  import opened Base
  import Projects
  import Roles

  /** A user document as the registration route writes it. */
  datatype User = User(
    id: Id,
    name: string,
    email: string,
    passwordHash: string,
    team: Option<Id>,
    role: Option<string>)

  datatype Team = Team(id: Id, name: string, owner: Id, members: seq<Id>)

  /** The Invite schema's status enum. */
  datatype InviteStatus = Pending | Accepted | Expired

  datatype Invite = Invite(email: string, team: Id, inviter: Id, token: string, status: InviteStatus)

  /** `io.to(team).emit('team:memberAdded', { userId, name })`. */
  datatype Event = TeamMemberAdded(room: Id, userId: Id, name: string)

  /** The collections the route touches, one id counter for the documents
      it creates, and the log of emitted events. */
  datatype World = World(
    users: seq<User>,
    teams: seq<Team>,
    invites: seq<Invite>,
    projects: seq<Projects.Project>,
    roles: Roles.RoleStore,
    nextId: Id,
    events: seq<Event>)

  /** Every id in use is below the counter, so the next id is fresh. */
  predicate WellFormed(w: World) {
    && (forall i :: 0 <= i < |w.users| ==> w.users[i].id < w.nextId)
    && TeamsBelow(w.teams, w.nextId)
    && ProjectsBelow(w.projects, w.nextId)
  }

  /** Every team member is below `n`. */
  predicate TeamsBelow(teams: seq<Team>, n: Id) {
    forall i :: 0 <= i < |teams| ==> forall m :: m in teams[i].members ==> m < n
  }

  /** Every project member is below `n`. */
  predicate ProjectsBelow(ps: seq<Projects.Project>, n: Id) {
    forall i :: 0 <= i < |ps| ==> forall m :: m in ps[i].members ==> m < n
  }

  // ---------------------------------------------------------------------
  // $addToSet and the per-project steps of invite acceptance
  // ---------------------------------------------------------------------

  /** `$addToSet`: appends `x` unless it is already present. */
  function AddToSet(s: seq<Id>, x: Id): (r: seq<Id>)
    ensures forall y :: y in r <==> y in s || y == x
    ensures multiset(r)[x] == if x in s then multiset(s)[x] else 1
    ensures forall y :: y != x ==> multiset(r)[y] == multiset(s)[y]
    ensures x in s ==> r == s
  {
    if x in s then s else s + [x]
  }

  predicate InTeam(p: Projects.Project, team: Id) {
    p.team == Some(team)
  }

  /** `Project.findByIdAndUpdate(project._id, { $addToSet: { members } })`
      for every project of the team. */
  function JoinProjects(ps: seq<Projects.Project>, team: Id, uid: Id): (r: seq<Projects.Project>)
    ensures |r| == |ps|
    ensures forall i :: 0 <= i < |ps| && !InTeam(ps[i], team) ==> r[i] == ps[i]
    ensures forall i :: 0 <= i < |ps| && InTeam(ps[i], team) ==>
      r[i] == ps[i].(members := AddToSet(ps[i].members, uid))
  {
    seq(|ps|, i requires 0 <= i < |ps| =>
      if InTeam(ps[i], team) then ps[i].(members := AddToSet(ps[i].members, uid)) else ps[i])
  }

  /** The upsert of a `viewer` role for every project of the team, in the
      order `Project.find` returns them. */
  function JoinRoles(roles: Roles.RoleStore, ps: seq<Projects.Project>, team: Id, uid: Id): (r: Roles.RoleStore)
    ensures Roles.OnePerPair(roles) ==> Roles.OnePerPair(r)
    decreases ps
  {
    if ps == [] then roles
    else
      var next := if InTeam(ps[0], team) then Roles.SetUserRole(roles, ps[0].id, uid, Some("viewer")).store else roles;
      JoinRoles(next, ps[1..], team, uid)
  }

  /** A viewer role, once there, survives the remaining upserts. */
  lemma {:induction false} JoinRolesKeepsViewer(roles: Roles.RoleStore, ps: seq<Projects.Project>, team: Id, uid: Id, p: Id)
    requires Roles.RoleOf(roles, p, uid) == Some(Roles.Viewer)
    ensures Roles.RoleOf(JoinRoles(roles, ps, team, uid), p, uid) == Some(Roles.Viewer)
    decreases ps
  {
    if ps != [] {
      var next := if InTeam(ps[0], team) then Roles.SetUserRole(roles, ps[0].id, uid, Some("viewer")).store else roles;
      if InTeam(ps[0], team) && ps[0].id != p {
        Roles.SetUserRoleOthers(roles, ps[0].id, uid, Some("viewer"), p, uid);
      }
      JoinRolesKeepsViewer(next, ps[1..], team, uid, p);
    }
  }

  /** After the upserts the user is a viewer of every project of the team. */
  lemma {:induction false} JoinRolesViewer(roles: Roles.RoleStore, ps: seq<Projects.Project>, team: Id, uid: Id)
    ensures forall q :: q in ps && InTeam(q, team) ==>
      Roles.RoleOf(JoinRoles(roles, ps, team, uid), q.id, uid) == Some(Roles.Viewer)
    decreases ps
  {
    if ps != [] {
      var next := if InTeam(ps[0], team) then Roles.SetUserRole(roles, ps[0].id, uid, Some("viewer")).store else roles;
      JoinRolesViewer(next, ps[1..], team, uid);
      if InTeam(ps[0], team) {
        JoinRolesKeepsViewer(next, ps[1..], team, uid, ps[0].id);
      }
      forall q | q in ps && InTeam(q, team)
        ensures Roles.RoleOf(JoinRoles(roles, ps, team, uid), q.id, uid) == Some(Roles.Viewer)
      {
        if q != ps[0] {
          assert q in ps[1..];
        }
      }
    }
  }

  /** The upserts touch no role of another user, and no role of a project
      outside the team. */
  lemma {:induction false} JoinRolesOthers(roles: Roles.RoleStore, ps: seq<Projects.Project>, team: Id, uid: Id, p: Id, u: Id)
    requires u != uid || forall q :: q in ps && InTeam(q, team) ==> q.id != p
    ensures Roles.RoleOf(JoinRoles(roles, ps, team, uid), p, u) == Roles.RoleOf(roles, p, u)
    decreases ps
  {
    if ps != [] {
      var next := if InTeam(ps[0], team) then Roles.SetUserRole(roles, ps[0].id, uid, Some("viewer")).store else roles;
      if InTeam(ps[0], team) {
        assert ps[0] in ps;
        Roles.SetUserRoleOthers(roles, ps[0].id, uid, Some("viewer"), p, u);
      }
      assert forall q :: q in ps[1..] ==> q in ps;
      JoinRolesOthers(next, ps[1..], team, uid, p, u);
    }
  }

  // ---------------------------------------------------------------------
  // Register
  // ---------------------------------------------------------------------

  datatype RegisterRequest = RegisterRequest(
    name: Option<string>,
    email: Option<string>,
    password: Option<string>,
    inviteToken: Option<string>)

  datatype AuthResult = AuthResult(world: World, reply: Reply<string>)

  const UserCreated: Reply<string> := Ok(201, "User created")

  predicate EmailTaken(w: World, email: string) {
    exists i :: 0 <= i < |w.users| && w.users[i].email == email
  }

  predicate Redeemable(inv: Invite, token: string) {
    inv.token == token && inv.status == Pending
  }

  /** The invite `findOne({ token, status: 'pending' })` finds: the first
      pending invite with the token. */
  function PendingInvite(w: World, token: string): (r: Option<nat>)
    ensures r.None? <==> forall i :: 0 <= i < |w.invites| ==> !Redeemable(w.invites[i], token)
    ensures r.Some? ==> r.value < |w.invites| && Redeemable(w.invites[r.value], token)
    ensures r.Some? ==> forall i :: 0 <= i < r.value ==> !Redeemable(w.invites[i], token)
  {
    FindFirst(w.invites, (inv: Invite) => Redeemable(inv, token))
  }

  /** The team `findById` finds. */
  function TeamIndex(teams: seq<Team>, team: Id): (r: Option<nat>)
    ensures r.None? <==> forall i :: 0 <= i < |teams| ==> teams[i].id != team
    ensures r.Some? ==> r.value < |teams| && teams[r.value].id == team
    ensures r.Some? ==> forall i :: 0 <= i < r.value ==> teams[i].id != team
  {
    FindFirst(teams, (t: Team) => t.id == team)
  }

  /** `Team.findByIdAndUpdate(id, { $addToSet: { members: uid } })`: the
      team with that id, if any, gains the member. */
  function AddTeamMember(teams: seq<Team>, team: Id, uid: Id): (r: seq<Team>)
    ensures |r| == |teams|
    ensures TeamIndex(teams, team).None? ==> r == teams
    ensures TeamIndex(teams, team).Some? ==>
      var k := TeamIndex(teams, team).value;
      && r[k] == teams[k].(members := AddToSet(teams[k].members, uid))
      && forall j :: 0 <= j < |teams| && j != k ==> r[j] == teams[j]
  {
    match TeamIndex(teams, team)
    case None => teams
    case Some(k) => teams[k := teams[k].(members := AddToSet(teams[k].members, uid))]
  }

  /** The invite branch after the user exists: team membership, the user's
      team and role, the accepted invite, project membership and viewer
      roles, then the event. */
  function AcceptInvite(w: World, k: nat, u: nat, name: string): (r: World)
    requires k < |w.invites| && u < |w.users|
  {
    var inv := w.invites[k];
    var uid := w.users[u].id;
    w.(teams := AddTeamMember(w.teams, inv.team, uid),
       users := w.users[u := w.users[u].(team := Some(inv.team), role := Some("member"))],
       invites := w.invites[k := inv.(status := Accepted)],
       projects := JoinProjects(w.projects, inv.team, uid),
       roles := JoinRoles(w.roles, w.projects, inv.team, uid),
       events := w.events + [TeamMemberAdded(inv.team, uid, name)])
  }

  /** `POST /register` against the user schema the route evidently expects:
      one whose `email` is unique, so that the catch-all answer 'Email
      already exists' is reached exactly when the email is in use. `hashed`
      stands for `bcrypt.hash(password)`. */
  function Register(w: World, req: RegisterRequest, hashed: string): (r: AuthResult)
    ensures Missing(req.name) || Missing(req.email) || Missing(req.password) ==>
      r == AuthResult(w, Fail(400, "Name, email and password required"))
    ensures !Missing(req.name) && !Missing(req.email) && !Missing(req.password) && EmailTaken(w, req.email.value) ==>
      r == AuthResult(w, Fail(400, "Email already exists"))
    ensures r.reply.Ok? <==>
      && !Missing(req.name) && !Missing(req.email) && !Missing(req.password)
      && !EmailTaken(w, req.email.value)
      && (Missing(req.inviteToken) || PendingInvite(w, req.inviteToken.value).Some?)
    ensures r.reply.Ok? ==> r.reply == UserCreated
    ensures r.reply.Fail? ==> r.reply.status == 400
  {
    if Missing(req.name) || Missing(req.email) || Missing(req.password) then
      AuthResult(w, Fail(400, "Name, email and password required"))
    else if EmailTaken(w, req.email.value) then
      AuthResult(w, Fail(400, "Email already exists"))
    else
      var uid := w.nextId;
      var name := req.name.value;
      var user := User(uid, name, req.email.value, hashed, None, None);
      var w1 := w.(users := w.users + [user], nextId := uid + 1);
      if !Missing(req.inviteToken) then
        match PendingInvite(w, req.inviteToken.value)
        case None => AuthResult(w1, Fail(400, "Invalid or expired invite token."))
        case Some(k) => AuthResult(AcceptInvite(w1, k, |w.users|, name), UserCreated)
      else
        var teamId := w1.nextId;
        var team := Team(teamId, name + "'s Team", uid, [uid]);
        var w2 := w1.(teams := w1.teams + [team],
                      users := w1.users[|w.users| := user.(team := Some(teamId), role := Some("admin"))],
                      nextId := teamId + 1);
        AuthResult(w2, UserCreated)
  }

  /** The keys of the document `User.create` receives. */
  const UserDocKeys: set<string> := {"name", "email", "password"}

  /** Validation against the schema models/User.js compiles, which is a
      Task schema: `title` and `project` are required. */
  predicate TaskSchemaAccepts(keys: set<string>) {
    "title" in keys && "project" in keys
  }

  /** `POST /register` as written: `User.create` validates the new user
      against the Task schema of models/User.js, so once the fields are
      present the create throws, and the catch answers 'Email already
      exists' with nothing written. */
  function RegisterAsWritten(w: World, req: RegisterRequest, hashed: string): (r: AuthResult)
    ensures r.world == w
    ensures r.reply.Fail? && r.reply.status == 400
    ensures Missing(req.name) || Missing(req.email) || Missing(req.password) ==>
      r.reply == Fail(400, "Name, email and password required")
    ensures !Missing(req.name) && !Missing(req.email) && !Missing(req.password) ==>
      r.reply == Fail(400, "Email already exists")
  {
    if Missing(req.name) || Missing(req.email) || Missing(req.password) then
      AuthResult(w, Fail(400, "Name, email and password required"))
    else if !TaskSchemaAccepts(UserDocKeys) then
      AuthResult(w, Fail(400, "Email already exists"))
    else
      Register(w, req, hashed)
  }

  /** The discrepancy: a request with a fresh email and no invite is
      answered 'Email already exists' by the route as written, and creates
      the user under the intended schema. */
  lemma FreshEmailRefused(w: World, req: RegisterRequest, hashed: string)
    requires !Missing(req.name) && !Missing(req.email) && !Missing(req.password)
    requires !EmailTaken(w, req.email.value) && Missing(req.inviteToken)
    ensures RegisterAsWritten(w, req, hashed) == AuthResult(w, Fail(400, "Email already exists"))
    ensures Register(w, req, hashed).reply == UserCreated
    ensures |Register(w, req, hashed).world.users| == |w.users| + 1
  {
  }

  /** The user document registration creates, before the branch updates. */
  function NewUser(w: World, req: RegisterRequest, hashed: string): User
    requires req.name.Some? && req.email.Some?
  {
    User(w.nextId, req.name.value, req.email.value, hashed, None, None)
  }

  /** The user is created before the invite is looked at: a token that
      matches no pending invite is refused, yet the user stays, without a
      team or role, and nothing else changes. */
  lemma RegisterBadToken(w: World, req: RegisterRequest, hashed: string)
    requires !Missing(req.name) && !Missing(req.email) && !Missing(req.password)
    requires !EmailTaken(w, req.email.value)
    requires !Missing(req.inviteToken)
    requires PendingInvite(w, req.inviteToken.value).None?
    ensures var r := Register(w, req, hashed);
      && r.reply == Fail(400, "Invalid or expired invite token.")
      && r.world == w.(users := w.users + [NewUser(w, req, hashed)], nextId := w.nextId + 1)
  {
  }

  /** Registration with a pending invite's token: that invite becomes
      accepted, the user takes the invite's team and the role 'member', and
      the team hears of it. */
  lemma RegisterWithInvite(w: World, req: RegisterRequest, hashed: string)
    requires !Missing(req.name) && !Missing(req.email) && !Missing(req.password)
    requires !EmailTaken(w, req.email.value)
    requires !Missing(req.inviteToken)
    requires PendingInvite(w, req.inviteToken.value).Some?
    ensures var r := Register(w, req, hashed);
      var k := PendingInvite(w, req.inviteToken.value).value;
      var t := w.invites[k].team;
      && r.reply == UserCreated
      && r.world.invites == w.invites[k := w.invites[k].(status := Accepted)]
      && r.world.users == w.users + [NewUser(w, req, hashed).(team := Some(t), role := Some("member"))]
      && r.world.events == w.events + [TeamMemberAdded(t, w.nextId, req.name.value)]
      && r.world.nextId == w.nextId + 1
  {
    var user := NewUser(w, req, hashed);
    var t := w.invites[PendingInvite(w, req.inviteToken.value).value].team;
    assert (w.users + [user])[|w.users| := user.(team := Some(t), role := Some("member"))]
      == w.users + [user.(team := Some(t), role := Some("member"))];
  }

  /** After invite registration the user is in the invite's team exactly
      once, and no other team changes. */
  lemma RegisterJoinsTeam(w: World, req: RegisterRequest, hashed: string)
    requires WellFormed(w)
    requires !Missing(req.name) && !Missing(req.email) && !Missing(req.password)
    requires !EmailTaken(w, req.email.value)
    requires !Missing(req.inviteToken)
    requires PendingInvite(w, req.inviteToken.value).Some?
    ensures var r := Register(w, req, hashed);
      var t := w.invites[PendingInvite(w, req.inviteToken.value).value].team;
      && |r.world.teams| == |w.teams|
      && (TeamIndex(w.teams, t).Some? ==>
            multiset(r.world.teams[TeamIndex(w.teams, t).value].members)[w.nextId] == 1)
      && (forall j :: 0 <= j < |w.teams| && Some(j) != TeamIndex(w.teams, t) ==> r.world.teams[j] == w.teams[j])
  {
    var t := w.invites[PendingInvite(w, req.inviteToken.value).value].team;
    match TeamIndex(w.teams, t)
    case None =>
    case Some(j) =>
      assert w.nextId !in w.teams[j].members;
  }

  /** After invite registration every project of the invite's team lists
      the user and gives them the viewer role, whatever role they had. */
  lemma RegisterJoinsProjects(w: World, req: RegisterRequest, hashed: string)
    requires !Missing(req.name) && !Missing(req.email) && !Missing(req.password)
    requires !EmailTaken(w, req.email.value)
    requires !Missing(req.inviteToken)
    requires PendingInvite(w, req.inviteToken.value).Some?
    ensures var r := Register(w, req, hashed);
      var t := w.invites[PendingInvite(w, req.inviteToken.value).value].team;
      && |r.world.projects| == |w.projects|
      && (forall i :: 0 <= i < |w.projects| && !InTeam(w.projects[i], t) ==> r.world.projects[i] == w.projects[i])
      && (forall q :: q in r.world.projects && InTeam(q, t) ==>
            w.nextId in q.members && Roles.RoleOf(r.world.roles, q.id, w.nextId) == Some(Roles.Viewer))
  {
    var r := Register(w, req, hashed);
    var uid := w.nextId;
    var t := w.invites[PendingInvite(w, req.inviteToken.value).value].team;
    assert r.world.projects == JoinProjects(w.projects, t, uid);
    assert r.world.roles == JoinRoles(w.roles, w.projects, t, uid);
    JoinRolesViewer(w.roles, w.projects, t, uid);
    forall q | q in r.world.projects && InTeam(q, t)
      ensures uid in q.members && Roles.RoleOf(r.world.roles, q.id, uid) == Some(Roles.Viewer)
    {
      var i :| 0 <= i < |r.world.projects| && r.world.projects[i] == q;
      assert w.projects[i].id == q.id && InTeam(w.projects[i], t);
      assert w.projects[i] in w.projects;
    }
  }

  /** Registration without a token: a new team "<name>'s Team" owned by the
      user, with the user as its only member, and the user its admin. */
  lemma RegisterWithoutInvite(w: World, req: RegisterRequest, hashed: string)
    requires !Missing(req.name) && !Missing(req.email) && !Missing(req.password)
    requires !EmailTaken(w, req.email.value)
    requires Missing(req.inviteToken)
    ensures var r := Register(w, req, hashed);
      var uid := w.nextId;
      var teamId := w.nextId + 1;
      && r.reply == UserCreated
      && r.world.teams == w.teams + [Team(teamId, req.name.value + "'s Team", uid, [uid])]
      && r.world.users == w.users + [NewUser(w, req, hashed).(team := Some(teamId), role := Some("admin"))]
      && r.world.invites == w.invites && r.world.projects == w.projects && r.world.roles == w.roles
      && r.world.events == w.events
  {
    var user := NewUser(w, req, hashed);
    assert (w.users + [user])[|w.users| := user.(team := Some(w.nextId + 1), role := Some("admin"))]
      == w.users + [user.(team := Some(w.nextId + 1), role := Some("admin"))];
  }

  lemma TeamsBelowGrow(teams: seq<Team>, n: Id, n': Id)
    requires TeamsBelow(teams, n) && n <= n'
    ensures TeamsBelow(teams, n')
  {
  }

  lemma ProjectsBelowGrow(ps: seq<Projects.Project>, n: Id, n': Id)
    requires ProjectsBelow(ps, n) && n <= n'
    ensures ProjectsBelow(ps, n')
  {
  }

  /** Adding a member below the bound to a team keeps every member below it. */
  lemma AddTeamMemberBelow(teams: seq<Team>, team: Id, uid: Id, n: Id)
    requires TeamsBelow(teams, n) && uid < n
    ensures TeamsBelow(AddTeamMember(teams, team, uid), n)
  {
    var r := AddTeamMember(teams, team, uid);
    forall i | 0 <= i < |r| ensures forall m :: m in r[i].members ==> m < n {
      assert forall m :: m in r[i].members ==> m in teams[i].members || m == uid;
    }
  }

  /** Adding a member below the bound to projects keeps every member below it. */
  lemma JoinProjectsBelow(ps: seq<Projects.Project>, team: Id, uid: Id, n: Id)
    requires ProjectsBelow(ps, n) && uid < n
    ensures ProjectsBelow(JoinProjects(ps, team, uid), n)
  {
    var r := JoinProjects(ps, team, uid);
    forall i | 0 <= i < |r| ensures forall m :: m in r[i].members ==> m < n {
      assert forall m :: m in r[i].members ==> m in ps[i].members || m == uid;
    }
  }

  /** Registration keeps every id below the counter. */
  lemma RegisterWellFormed(w: World, req: RegisterRequest, hashed: string)
    requires WellFormed(w)
    ensures WellFormed(Register(w, req, hashed).world)
  {
    var r := Register(w, req, hashed);
    if !Missing(req.name) && !Missing(req.email) && !Missing(req.password) && !EmailTaken(w, req.email.value) {
      var uid := w.nextId;
      TeamsBelowGrow(w.teams, w.nextId, w.nextId + 1);
      ProjectsBelowGrow(w.projects, w.nextId, w.nextId + 1);
      if Missing(req.inviteToken) {
        TeamsBelowGrow(w.teams, w.nextId, w.nextId + 2);
        ProjectsBelowGrow(w.projects, w.nextId, w.nextId + 2);
        assert r.world.teams == w.teams + [Team(uid + 1, req.name.value + "'s Team", uid, [uid])];
      } else if PendingInvite(w, req.inviteToken.value).Some? {
        var t := w.invites[PendingInvite(w, req.inviteToken.value).value].team;
        AddTeamMemberBelow(w.teams, t, uid, uid + 1);
        JoinProjectsBelow(w.projects, t, uid, uid + 1);
      }
    }
  }

  // ---------------------------------------------------------------------
  // Login
  // ---------------------------------------------------------------------

  datatype LoginRequest = LoginRequest(email: Option<string>, password: Option<string>)

  /** The user `findOne({ email })` finds: the first with that email. */
  function UserByEmail(users: seq<User>, email: string): (r: Option<nat>)
    ensures r.None? <==> forall i :: 0 <= i < |users| ==> users[i].email != email
    ensures r.Some? ==> r.value < |users| && users[r.value].email == email
    ensures r.Some? ==> forall i :: 0 <= i < r.value ==> users[i].email != email
  {
    FindFirst(users, (u: User) => u.email == email)
  }

  /** `POST /login`. `matches` stands for `bcrypt.compare`; the signed token
      is represented by the id of the user it is issued for. */
  function Login(w: World, req: LoginRequest, matches: (string, string) -> bool): (r: Reply<Id>)
    ensures Missing(req.email) || Missing(req.password) ==> r == Fail(400, "Email and password required")
    ensures r.Ok? <==>
      && !Missing(req.email) && !Missing(req.password)
      && UserByEmail(w.users, req.email.value).Some?
      && matches(req.password.value, w.users[UserByEmail(w.users, req.email.value).value].passwordHash)
    ensures r.Ok? ==>
      var k := UserByEmail(w.users, req.email.value).value;
      r == Ok(200, w.users[k].id) && w.users[k].email == req.email.value
  {
    if Missing(req.email) || Missing(req.password) then Fail(400, "Email and password required")
    else
      match UserByEmail(w.users, req.email.value)
      case None => Fail(400, "Invalid credentials")
      case Some(i) =>
        if !matches(req.password.value, w.users[i].passwordHash) then Fail(400, "Invalid credentials")
        else Ok(200, w.users[i].id)
  }

  /** An unknown email and a wrong password get the same answer. */
  lemma LoginFailuresAlike(w: World, req: LoginRequest, matches: (string, string) -> bool)
    requires !Missing(req.email) && !Missing(req.password)
    ensures Login(w, req, matches).Fail? ==> Login(w, req, matches) == Fail(400, "Invalid credentials")
    ensures !EmailTaken(w, req.email.value) ==> Login(w, req, matches) == Fail(400, "Invalid credentials")
  {
  }
}

=== FILE: base.dfy ===
/** Shared vocabulary of the model: ids, optional values, route replies and
    the order-preserving filter that stands in for a collection query. */
module Base {

  /** A database object id. Ids are compared by identity; the source's
      `toString()` comparisons are identity comparisons on these. */
  type Id = nat

  datatype Option<+T> = None | Some(value: T) {

    /** Returns the value in Some, or the default when None */
    function GetOr(default: T): T {
      match this
      case Some(v) => v
      case None => default
    }
  }

  /** The reply a route handler sends: a success status with a body, or an
      error status with the error message the handler puts in its JSON body. */
  datatype Reply<+T> = Ok(status: nat, body: T) | Fail(status: nat, error: string)

  /** A JavaScript string parameter that is "missing" in the sense of `!x`:
      undefined or the empty string. */
  predicate Missing(x: Option<string>) {
    x.None? || x.value == ""
  }

  /** The elements of `s` that satisfy `p`, in their original order: the
      result of a `find` whose filter is `p`, before any sort. */
  function Filter<T(!new)>(s: seq<T>, p: T -> bool): (r: seq<T>)
    ensures |r| <= |s|
    ensures forall i :: 0 <= i < |r| ==> p(r[i])
    ensures forall x :: x in r <==> x in s && p(x)
    ensures multiset(r) <= multiset(s)
  {
    if s == [] then []
    else
      assert s == [s[0]] + s[1..];
      if p(s[0]) then [s[0]] + Filter(s[1..], p) else Filter(s[1..], p)
  }

  /** Filtering keeps exactly the occurrences that satisfy `p`. */
  lemma {:induction false} FilterMultiset<T(!new)>(s: seq<T>, p: T -> bool, x: T)
    ensures multiset(Filter(s, p))[x] == if p(x) then multiset(s)[x] else 0
  {
    if s != [] {
      assert s == [s[0]] + s[1..];
      FilterMultiset(s[1..], p, x);
    }
  }

  /** Position of the first element satisfying `p`: the document a
      `findOne` (or `findOneAndUpdate`, `findOneAndDelete`) with filter `p`
      acts on. */
  function FindFirst<T>(s: seq<T>, p: T -> bool): (r: Option<nat>)
    ensures r.None? <==> forall i :: 0 <= i < |s| ==> !p(s[i])
    ensures r.Some? ==> r.value < |s| && p(s[r.value])
    ensures r.Some? ==> forall j :: 0 <= j < r.value ==> !p(s[j])
  {
    if s == [] then None
    else if p(s[0]) then Some(0)
    else match FindFirst(s[1..], p)
      case None => None
      case Some(k) => Some(k + 1)
  }

  /** `s` without its element at `i`: what a delete of the document at
      position `i` leaves. */
  function RemoveAt<T>(s: seq<T>, i: nat): (r: seq<T>)
    requires i < |s|
    ensures |r| == |s| - 1
    ensures forall j :: 0 <= j < i ==> r[j] == s[j]
    ensures forall j :: i <= j < |r| ==> r[j] == s[j + 1]
    ensures multiset(r) == multiset(s) - multiset{s[i]}
  {
    assert s == s[..i] + [s[i]] + s[i + 1..];
    s[..i] + s[i + 1..]
  }
}

=== FILE: dedup.dfy ===
/** `Array.from(new Set(xs))`: keep the first occurrence of every element. */
module Dedup {

  predicate Distinct<T(==)>(s: seq<T>) {
    forall i, j :: 0 <= i < j < |s| ==> s[i] != s[j]
  }

  /** Index of the first occurrence of `x` in `s`. */
  function FirstIndex<T(==,!new)>(s: seq<T>, x: T): (k: nat)
    requires x in s
    ensures k < |s| && s[k] == x
    ensures forall j :: 0 <= j < k ==> s[j] != x
  {
    if s[0] == x then 0 else 1 + FirstIndex(s[1..], x)
  }

  /** Walks `s` left to right, skipping elements already in `seen`. */
  function DedupFrom<T(==,!new)>(s: seq<T>, seen: set<T>): (r: seq<T>)
    ensures Distinct(r)
    ensures forall x :: x in r <==> x in s && x !in seen
  {
    if s == [] then []
    else if s[0] in seen then DedupFrom(s[1..], seen)
    else [s[0]] + DedupFrom(s[1..], seen + {s[0]})
  }

  function Dedup<T(==,!new)>(s: seq<T>): seq<T> {
    DedupFrom(s, {})
  }

  /** The result holds each element of `s` exactly once. */
  lemma DedupElements<T(!new)>(s: seq<T>)
    ensures Distinct(Dedup(s))
    ensures forall x :: x in Dedup(s) <==> x in s
  {
  }

  /** Elements appear in the order of their first occurrence in the input. */
  lemma {:induction false} DedupFromOrder<T(!new)>(s: seq<T>, seen: set<T>)
    ensures forall i, j :: 0 <= i < j < |DedupFrom(s, seen)| ==>
      FirstIndex(s, DedupFrom(s, seen)[i]) < FirstIndex(s, DedupFrom(s, seen)[j])
  {
    if s != [] {
      var r := DedupFrom(s, seen);
      if s[0] in seen {
        DedupFromOrder(s[1..], seen);
        forall y | y in r
          ensures FirstIndex(s, y) == 1 + FirstIndex(s[1..], y)
        {
          assert y != s[0];
        }
      } else {
        var seen' := seen + {s[0]};
        DedupFromOrder(s[1..], seen');
        assert r == [s[0]] + DedupFrom(s[1..], seen');
        forall y | y in DedupFrom(s[1..], seen')
          ensures FirstIndex(s, y) == 1 + FirstIndex(s[1..], y)
        {
          assert y != s[0];
        }
      }
    }
  }

  lemma DedupOrder<T(!new)>(s: seq<T>)
    ensures forall i, j :: 0 <= i < j < |Dedup(s)| ==>
      FirstIndex(s, Dedup(s)[i]) < FirstIndex(s, Dedup(s)[j])
  {
    DedupFromOrder(s, {});
  }

  /** Whatever follows it, the head of the input leads the result. */
  lemma DedupHead<T(!new)>(x: T, rest: seq<T>)
    ensures |Dedup([x] + rest)| >= 1 && Dedup([x] + rest)[0] == x
  {
    assert ([x] + rest)[0] == x;
  }
}

=== FILE: fanout.dfy ===
/** The per-recipient loop of a notification fan-out: every step is one
    create that either yields a record or throws, and the whole loop sits in
    one `try`, so the first throw ends it. */
module Fanout {
  import opened Base

  /** The records created, in recipient order, and whether a create threw. */
  datatype Run<R> = Run(created: seq<R>, aborted: bool)

  /** The create for the k-th recipient, with the k-th id, failed. */
  predicate FailsAt<R>(create: (Id, Id) -> Option<R>, us: seq<Id>, nextId: Id, k: nat)
    requires k < |us|
  {
    create(us[k], nextId + k).None?
  }

  /** Runs `create(u, id)` for each recipient `u` in order, with fresh ids
      counting up from `nextId`, and stops at the first None. */
  function FanOut<R>(us: seq<Id>, nextId: Id, create: (Id, Id) -> Option<R>): (r: Run<R>)
    ensures |r.created| <= |us|
    ensures r.aborted <==> |r.created| < |us|
    ensures forall i :: 0 <= i < |r.created| ==> create(us[i], nextId + i) == Some(r.created[i])
    ensures r.aborted ==> FailsAt(create, us, nextId, |r.created|)
    decreases us
  {
    if us == [] then Run([], false)
    else match create(us[0], nextId)
      case None => Run([], true)
      case Some(n) =>
        var rest := FanOut(us[1..], nextId + 1, create);
        Run([n] + rest.created, rest.aborted)
  }

  /** The run depends only on what each create does. */
  lemma {:induction false} FanOutExtensional<R>(us: seq<Id>, nextId: Id,
                                                f: (Id, Id) -> Option<R>, g: (Id, Id) -> Option<R>)
    requires forall u, id :: f(u, id) == g(u, id)
    ensures FanOut(us, nextId, f) == FanOut(us, nextId, g)
    decreases us
  {
    if us != [] {
      FanOutExtensional(us[1..], nextId + 1, f, g);
    }
  }
}

=== FILE: files.dfy ===
/** File uploads (routes/files.js): the storage parameters chosen from a
    file's name, the upload size limit, and the two route handlers. */
module Files {
  import opened Base
  import opened Sorting

  // ---------------------------------------------------------------------
  // The extension of a file name
  // ---------------------------------------------------------------------

  /** `name.split('.')`: the pieces between the dots, as JavaScript splits a
      string on a one-character separator. */
  function SplitDot(s: string): (r: seq<string>)
    ensures |r| >= 1
    ensures '.' !in s ==> r == [s]
    ensures '.' in s ==> |r| > 1
    ensures forall i :: 0 <= i < |r| ==> '.' !in r[i]
  {
    if s == [] then [[]]
    else
      var rest := SplitDot(s[1..]);
      if s[0] == '.' then [[]] + rest
      else
        assert s == [s[0]] + s[1..];
        [[s[0]] + rest[0]] + rest[1..]
  }

  /** `r` is a final segment of `s`. */
  predicate IsSuffix(r: string, s: string) {
    |r| <= |s| && s[|s| - |r|..] == r
  }

  lemma SuffixOfTail(t: string, s: string)
    requires |s| > 0 && IsSuffix(t, s[1..])
    ensures IsSuffix(t, s)
  {
    assert s[1..][|s| - 1 - |t|..] == s[|s| - |t|..];
  }

  /** The text after the last '.', or all of `s` when it holds no '.'. */
  function AfterLastDot(s: string): (r: string)
    ensures '.' !in r
    ensures IsSuffix(r, s)
    ensures |r| < |s| <==> '.' in s
    ensures |r| < |s| ==> s[|s| - |r| - 1] == '.'
  {
    if s == [] then []
    else
      var t := AfterLastDot(s[1..]);
      if |t| < |s| - 1 || s[0] == '.' then
        SuffixOfTail(t, s);
        t
      else
        assert t == s[1..];
        assert s == [s[0]] + t;
        s
  }

  /** A name without a '.' is its own last piece. */
  lemma NoDotWhole(s: string)
    requires '.' !in s
    ensures AfterLastDot(s) == s
  {
    var r := AfterLastDot(s);
    assert |r| == |s|;
  }

  /** A '.' at or after the first character leaves the last piece to the tail. */
  lemma AfterLastDotSkip(s: string)
    requires s != [] && (s[0] == '.' || '.' in s[1..])
    ensures AfterLastDot(s) == AfterLastDot(s[1..])
  {
    var t := AfterLastDot(s[1..]);
    if s[0] != '.' {
      assert |t| < |s| - 1;
    }
  }

  /** Likewise, the last piece of the split is the last piece of the tail's split. */
  lemma SplitDotLastOfTail(s: string)
    requires s != [] && (s[0] == '.' || |SplitDot(s[1..])| > 1)
    ensures var parts := SplitDot(s); var rest := SplitDot(s[1..]);
      parts[|parts| - 1] == rest[|rest| - 1]
  {
    var rest := SplitDot(s[1..]);
    var parts := SplitDot(s);
    if s[0] == '.' {
      assert parts == [[]] + rest;
    } else {
      assert parts == [[s[0]] + rest[0]] + rest[1..];
    }
    assert |parts| == |rest| || |parts| == |rest| + 1;
  }

  lemma NoDotCons(s: string)
    requires s != [] && s[0] != '.' && '.' !in s[1..]
    ensures '.' !in s
  {
    assert s == [s[0]] + s[1..];
  }

  /** `split('.').pop()` is the text after the last '.'. */
  lemma {:induction false} SplitPopIsAfterLastDot(s: string)
    ensures var parts := SplitDot(s); parts[|parts| - 1] == AfterLastDot(s)
  {
    if s != [] {
      SplitPopIsAfterLastDot(s[1..]);
      if s[0] == '.' || '.' in s[1..] {
        AfterLastDotSkip(s);
        assert s[0] == '.' || |SplitDot(s[1..])| > 1;
        SplitDotLastOfTail(s);
      } else {
        NoDotCons(s);
        NoDotWhole(s);
      }
    }
  }

  predicate IsUpper(c: char) {
    'A' <= c <= 'Z'
  }

  function LowerChar(c: char): (r: char)
    ensures !IsUpper(r)
    ensures IsUpper(c) ==> r as int == c as int + 32
    ensures !IsUpper(c) ==> r == c
  {
    if IsUpper(c) then (c as int + 32) as char else c
  }

  /** `toLowerCase()` on the ASCII letters. */
  function Lower(s: string): (r: string)
    ensures |r| == |s|
    ensures forall i :: 0 <= i < |r| ==> !IsUpper(r[i])
    ensures forall i :: 0 <= i < |s| && !IsUpper(s[i]) ==> r[i] == s[i]
  {
    seq(|s|, i requires 0 <= i < |s| => LowerChar(s[i]))
  }

  /** The extension the storage step classifies: the lower-cased last piece
      of the original name. */
  function Extension(originalName: string): (r: string)
    ensures |r| <= |originalName|
    ensures '.' !in r
    ensures forall i :: 0 <= i < |r| ==> !IsUpper(r[i])
  {
    var tail := AfterLastDot(originalName);
    assert forall i :: 0 <= i < |tail| ==> tail[i] != '.';
    Lower(tail)
  }

  /** The extension is the lower-cased text after the last '.', and the
      whole lower-cased name when there is no '.'. */
  lemma ExtensionShape(originalName: string)
    ensures '.' !in originalName ==> Extension(originalName) == Lower(originalName)
    ensures var e := Extension(originalName); var k := |originalName| - |e|;
      && (k > 0 ==> originalName[k - 1] == '.')
      && Lower(originalName[k..]) == e
  {
    if '.' !in originalName {
      NoDotWhole(originalName);
    }
  }

  // ---------------------------------------------------------------------
  // Resource types
  // ---------------------------------------------------------------------

  const ImageFormats: seq<string> := ["jpg", "jpeg", "png", "gif", "webp", "bmp", "tiff", "svg", "ico"]
  const DocumentFormats: seq<string> :=
    ["pdf", "doc", "docx", "xls", "xlsx", "ppt", "pptx", "txt", "rtf", "csv", "odt", "ods", "odp", "md", "log"]
  const ArchiveFormats: seq<string> := ["zip", "rar", "7z", "tar", "gz", "bz2"]
  const AudioFormats: seq<string> := ["mp3", "wav", "ogg", "aac", "flac", "m4a"]
  const VideoFormats: seq<string> := ["mp4", "avi", "mov", "wmv", "flv", "mkv", "webm", "mpeg", "3gp"]
  const OtherFormats: seq<string> := ["json", "xml", "html", "htm"]

  /** `allowed_formats`: the six lists one after another. */
  const AllFormats: seq<string> :=
    ImageFormats + DocumentFormats + ArchiveFormats + AudioFormats + VideoFormats + OtherFormats

  /** Cloudinary's `resource_type`. */
  datatype ResourceType = Auto | Raw | Video | Image

  predicate IsRawFormat(ext: string) {
    ext in DocumentFormats + ArchiveFormats + OtherFormats
  }

  /** The `if`/`else if` chain choosing the resource type; audio is stored
      as video. */
  function Classify(ext: string): ResourceType {
    if IsRawFormat(ext) then Raw
    else if ext in AudioFormats then Video
    else if ext in VideoFormats then Video
    else if ext in ImageFormats then Image
    else Auto
  }

  lemma RawNotAudio(ext: string)
    ensures IsRawFormat(ext) ==> ext !in AudioFormats
  {
  }

  lemma RawNotVideo(ext: string)
    ensures IsRawFormat(ext) ==> ext !in VideoFormats
  {
  }

  lemma RawNotImage(ext: string)
    ensures IsRawFormat(ext) ==> ext !in ImageFormats
  {
  }

  lemma AudioNotVideoOrImage(ext: string)
    ensures ext in AudioFormats ==> ext !in VideoFormats && ext !in ImageFormats
  {
  }

  lemma VideoNotImage(ext: string)
    ensures ext in VideoFormats ==> ext !in ImageFormats
  {
  }

  /** No extension is in two of the lists, so the order of the chain only
      matters for extensions in none of them. */
  lemma ListsDisjoint(ext: string)
    ensures IsRawFormat(ext) ==> ext !in AudioFormats && ext !in VideoFormats && ext !in ImageFormats
    ensures ext in AudioFormats ==> ext !in VideoFormats && ext !in ImageFormats
    ensures ext in VideoFormats ==> ext !in ImageFormats
  {
    RawNotAudio(ext);
    RawNotVideo(ext);
    RawNotImage(ext);
    AudioNotVideoOrImage(ext);
    VideoNotImage(ext);
  }

  /** Document, archive and other extensions, and only those, are raw. */
  lemma ClassifyRaw(ext: string)
    ensures Classify(ext) == Raw <==> ext in DocumentFormats || ext in ArchiveFormats || ext in OtherFormats
  {
  }

  /** Audio and video extensions, and only those, are video. */
  lemma ClassifyVideo(ext: string)
    ensures Classify(ext) == Video <==> ext in AudioFormats || ext in VideoFormats
  {
    ListsDisjoint(ext);
  }

  /** Image extensions, and only those, are images. */
  lemma ClassifyImage(ext: string)
    ensures Classify(ext) == Image <==> ext in ImageFormats
  {
    ListsDisjoint(ext);
  }

  /** An extension is left to Cloudinary exactly when it is in no list, so
      every extension with a type of its own is an allowed format. */
  lemma ClassifyAuto(ext: string)
    ensures Classify(ext) == Auto <==> ext !in AllFormats
  {
  }

  // ---------------------------------------------------------------------
  // Storage parameters and the upload limit
  // ---------------------------------------------------------------------

  const Folder: string := "project_files"

  /** multer's `limits.fileSize`, 20 MiB. */
  const MaxFileSize: nat := 20 * 1024 * 1024

  datatype StorageParams = StorageParams(folder: string, allowedFormats: seq<string>, resourceType: ResourceType)

  /** The `params` callback of the Cloudinary storage. */
  function Params(originalName: string): (p: StorageParams)
    ensures p.folder == Folder && p.allowedFormats == AllFormats
    ensures p.resourceType == Auto <==> Extension(originalName) !in p.allowedFormats
  {
    var ext := Extension(originalName);
    ClassifyAuto(ext);
    StorageParams(Folder, AllFormats, Classify(ext))
  }

  // ---------------------------------------------------------------------
  // Routes
  // ---------------------------------------------------------------------

  /** What multer hands the route: the original name, the stored file's URL
      (`path`) when storage produced one, and the size. */
  datatype IncomingFile = IncomingFile(originalName: string, path: Option<string>, size: nat)

  datatype FileRecord = FileRecord(id: Id, filename: string, url: string, uploader: Id, uploadedAt: int)

  datatype FileStore = FileStore(docs: seq<FileRecord>, nextId: Id)

  /** An upload either never reaches the handler (multer refuses a file over
      the limit) or gets the handler's reply. */
  datatype UploadOutcome =
    | TooLarge
    | Handled(store: FileStore, reply: Reply<FileRecord>)

  /** `POST /api/files`. */
  function Upload(store: FileStore, file: Option<IncomingFile>, uploader: Id, now: int): (o: UploadOutcome)
    ensures o.TooLarge? <==> file.Some? && file.value.size > 20971520
    ensures o.Handled? && (file.None? || Missing(file.value.path)) ==>
      o.store == store && o.reply == Fail(400, "No file uploaded")
    ensures o.Handled? && file.Some? && !Missing(file.value.path) ==>
      && o.reply.Ok? && o.reply.status == 201
      && o.reply.body.filename == file.value.originalName
      && o.reply.body.url == file.value.path.value
      && o.reply.body.uploader == uploader
      && o.reply.body.uploadedAt == now
      && o.store.docs == store.docs + [o.reply.body]
      && o.store.nextId > o.reply.body.id >= store.nextId
  {
    if file.Some? && file.value.size > MaxFileSize then TooLarge
    else if file.None? || Missing(file.value.path) then Handled(store, Fail(400, "No file uploaded"))
    else
      var rec := FileRecord(store.nextId, file.value.originalName, file.value.path.value, uploader, now);
      Handled(FileStore(store.docs + [rec], store.nextId + 1), Ok(201, rec))
  }

  function UploadedAt(f: FileRecord): int {
    f.uploadedAt
  }

  /** `GET /api/files`: every stored file, most recent upload first. */
  function ListFiles(store: FileStore): (r: seq<FileRecord>)
    ensures multiset(r) == multiset(store.docs)
    ensures SortedDesc(r, UploadedAt)
  {
    SortDesc(store.docs, UploadedAt)
  }
}

=== FILE: messages.dfy ===
/** Direct-message queries and updates (controllers/messageController.js). */
module Messages {
  import opened Base
  import opened Sorting

  datatype Message = Message(
    id: Id,
    sender: Id,
    receiver: Id,
    content: string,
    read: bool,
    createdAt: int)

  /** The Message collection in natural order. */
  type MessageStore = seq<Message>

  function SentAt(m: Message): int {
    m.createdAt
  }

  /** `m` went from one of the two users to the other. */
  predicate Between(m: Message, a: Id, b: Id) {
    (m.sender == a && m.receiver == b) || (m.sender == b && m.receiver == a)
  }

  /** `getConversation`: the messages between the caller and `other`, in
      either direction, oldest first. */
  function GetConversation(store: MessageStore, me: Id, other: Id): (r: seq<Message>)
    ensures forall m :: m in r <==> m in store && Between(m, me, other)
    ensures forall m :: multiset(r)[m] == if Between(m, me, other) then multiset(store)[m] else 0
    ensures SortedAsc(r, SentAt)
  {
    var between := Filter(store, (m: Message) => Between(m, me, other));
    var r := SortAsc(between, SentAt);
    forall m ensures multiset(r)[m] == if Between(m, me, other) then multiset(store)[m] else 0 {
      FilterMultiset(store, (m: Message) => Between(m, me, other), m);
    }
    r
  }

  /** `markAsRead(senderId)`: `updateMany({ sender, receiver: me, read: false },
      { read: true })`. */
  function MarkAsRead(store: MessageStore, me: Id, senderId: Id): (r: MessageStore)
    ensures |r| == |store|
    ensures forall i :: 0 <= i < |r| ==> r[i] == store[i].(read := r[i].read)
    ensures forall i :: 0 <= i < |r| && r[i].sender == senderId && r[i].receiver == me ==> r[i].read
    ensures forall i :: 0 <= i < |r| && !(store[i].sender == senderId && store[i].receiver == me) ==>
      r[i] == store[i]
  {
    seq(|store|, i requires 0 <= i < |store| =>
      var m := store[i];
      if m.sender == senderId && m.receiver == me && !m.read then m.(read := true) else m)
  }

  /** Marking a conversation read twice is the same as marking it once. */
  lemma MarkAsReadIdempotent(store: MessageStore, me: Id, senderId: Id)
    ensures MarkAsRead(MarkAsRead(store, me, senderId), me, senderId) == MarkAsRead(store, me, senderId)
  {
  }

  predicate Unread(m: Message, me: Id) {
    m.receiver == me && !m.read
  }

  /** The documents `countDocuments({ receiver: me, read: false })` counts,
      by position. */
  function UnreadPositions(store: MessageStore, me: Id, n: nat): set<nat>
    requires n <= |store|
  {
    set i: nat | i < n && Unread(store[i], me)
  }

  /** `getUnreadCount`: the number of messages to the caller still unread. */
  method GetUnreadCount(store: MessageStore, me: Id) returns (count: nat)
    ensures count == |UnreadPositions(store, me, |store|)|
    ensures count <= |store|
  {
    count := 0;
    var i := 0;
    while i < |store|
      invariant 0 <= i <= |store|
      invariant count == |UnreadPositions(store, me, i)|
      invariant count <= i
    {
      if Unread(store[i], me) {
        assert UnreadPositions(store, me, i + 1) == UnreadPositions(store, me, i) + {i};
        count := count + 1;
      } else {
        assert UnreadPositions(store, me, i + 1) == UnreadPositions(store, me, i);
      }
      i := i + 1;
    }
  }

  /** After `markAsRead(senderId)` none of the unread messages left for the
      caller comes from that sender. */
  lemma MarkAsReadClearsUnread(store: MessageStore, me: Id, senderId: Id)
    ensures forall i :: 0 <= i < |store| && Unread(MarkAsRead(store, me, senderId)[i], me) ==>
      MarkAsRead(store, me, senderId)[i].sender != senderId
  {
  }

  /** The other party of a message seen from `me`: the receiver of what `me`
      sent, the sender of anything else. */
  function Partner(m: Message, me: Id): Id {
    if m.sender == me then m.receiver else m.sender
  }

  /** One entry of the recent-conversations list. */
  datatype Conversation = Conversation(partner: Id, lastMessage: Message)

  /** Some entry of `r` is for partner `p`. */
  predicate HasPartner(r: seq<Conversation>, p: Id) {
    exists i :: 0 <= i < |r| && r[i].partner == p
  }

  /** Keeps the first message for every partner not yet in `seen`: the
      `if (!conversations[otherUser._id])` of the source. */
  function GroupFrom(s: seq<Message>, me: Id, seen: set<Id>): (r: seq<Conversation>)
    ensures forall i :: 0 <= i < |r| ==>
      r[i].partner !in seen && r[i].lastMessage in s && Partner(r[i].lastMessage, me) == r[i].partner
    ensures forall i, j :: 0 <= i < j < |r| ==> r[i].partner != r[j].partner
  {
    if s == [] then []
    else
      var p := Partner(s[0], me);
      if p in seen then GroupFrom(s[1..], me, seen)
      else [Conversation(p, s[0])] + GroupFrom(s[1..], me, seen + {p})
  }

  /** Every partner of a message, unless already seen, gets an entry. */
  lemma {:induction false} GroupCovers(s: seq<Message>, me: Id, seen: set<Id>)
    ensures forall m :: m in s && Partner(m, me) !in seen ==> HasPartner(GroupFrom(s, me, seen), Partner(m, me))
  {
    if s != [] {
      var p := Partner(s[0], me);
      var r := GroupFrom(s, me, seen);
      forall m | m in s && Partner(m, me) !in seen
        ensures HasPartner(r, Partner(m, me))
      {
        if Partner(m, me) == p {
          assert r[0].partner == p;
        } else {
          assert m in s[1..];
          if p in seen {
            GroupCovers(s[1..], me, seen);
          } else {
            GroupCovers(s[1..], me, seen + {p});
            var rest := GroupFrom(s[1..], me, seen + {p});
            var k :| 0 <= k < |rest| && rest[k].partner == Partner(m, me);
            assert r[k + 1] == rest[k];
          }
        }
      }
    }
  }

  /** Newest first, stated on the messages' own timestamps. */
  predicate NewestFirst(s: seq<Message>) {
    forall i, j :: 0 <= i < j < |s| ==> s[i].createdAt >= s[j].createdAt
  }

  lemma SortedIsNewestFirst(s: seq<Message>)
    requires SortedDesc(s, SentAt)
    ensures NewestFirst(s)
  {
    forall i, j | 0 <= i < j < |s| ensures s[i].createdAt >= s[j].createdAt {
      assert SentAt(s[i]) >= SentAt(s[j]);
    }
  }

  /** The first message of a newest-first sequence is at least as new as
      every other. */
  lemma HeadIsNewest(s: seq<Message>)
    requires s != [] && NewestFirst(s)
    ensures forall m :: m in s ==> m.createdAt <= s[0].createdAt
  {
    forall m | m in s ensures m.createdAt <= s[0].createdAt {
      var k :| 0 <= k < |s| && s[k] == m;
      if k > 0 { assert s[0].createdAt >= s[k].createdAt; }
    }
  }

  /** Every entry of `r` holds a message at least as new as any message in
      `s` exchanged with the same partner. */
  predicate HoldsNewest(r: seq<Conversation>, s: seq<Message>, me: Id) {
    forall i, m :: 0 <= i < |r| && m in s && Partner(m, me) == r[i].partner ==>
      m.createdAt <= r[i].lastMessage.createdAt
  }

  /** The entries of `r` run from the most recent conversation to the least. */
  predicate EntriesNewestFirst(r: seq<Conversation>) {
    forall i, j :: 0 <= i < j < |r| ==> r[i].lastMessage.createdAt >= r[j].lastMessage.createdAt
  }

  /** Entries for partners other than the head's keep the newest message
      when the head joins the messages. */
  lemma HoldsNewestSkip(r: seq<Conversation>, s: seq<Message>, me: Id)
    requires s != [] && HoldsNewest(r, s[1..], me)
    requires forall i :: 0 <= i < |r| ==> r[i].partner != Partner(s[0], me)
    ensures HoldsNewest(r, s, me)
  {
    forall i, m | 0 <= i < |r| && m in s && Partner(m, me) == r[i].partner
      ensures m.createdAt <= r[i].lastMessage.createdAt
    {
      assert m != s[0];
      assert m in s[1..];
    }
  }

  /** The head of a newest-first sequence is the newest message with its
      partner, so an entry holding it can lead the others. */
  lemma HoldsNewestTake(rest: seq<Conversation>, s: seq<Message>, me: Id)
    requires s != [] && NewestFirst(s) && HoldsNewest(rest, s[1..], me)
    requires forall i :: 0 <= i < |rest| ==> rest[i].partner != Partner(s[0], me)
    ensures HoldsNewest([Conversation(Partner(s[0], me), s[0])] + rest, s, me)
  {
    var r := [Conversation(Partner(s[0], me), s[0])] + rest;
    HeadIsNewest(s);
    HoldsNewestSkip(rest, s, me);
    forall i, m | 0 <= i < |r| && m in s && Partner(m, me) == r[i].partner
      ensures m.createdAt <= r[i].lastMessage.createdAt
    {
      if i > 0 {
        assert r[i] == rest[i - 1];
      }
    }
  }

  /** On a newest-first input, each entry holds the newest message exchanged
      with its partner. */
  lemma {:induction false} GroupNewest(s: seq<Message>, me: Id, seen: set<Id>)
    requires NewestFirst(s)
    ensures HoldsNewest(GroupFrom(s, me, seen), s, me)
  {
    if s != [] {
      var p := Partner(s[0], me);
      assert NewestFirst(s[1..]);
      if p in seen {
        GroupNewest(s[1..], me, seen);
        HoldsNewestSkip(GroupFrom(s[1..], me, seen), s, me);
      } else {
        GroupNewest(s[1..], me, seen + {p});
        HoldsNewestTake(GroupFrom(s[1..], me, seen + {p}), s, me);
      }
    }
  }

  /** On a newest-first input the entries run newest first too. */
  lemma {:induction false} GroupOrder(s: seq<Message>, me: Id, seen: set<Id>)
    requires NewestFirst(s)
    ensures EntriesNewestFirst(GroupFrom(s, me, seen))
  {
    if s != [] {
      var p := Partner(s[0], me);
      assert NewestFirst(s[1..]);
      if p !in seen {
        var r := GroupFrom(s, me, seen);
        var rest := GroupFrom(s[1..], me, seen + {p});
        GroupOrder(s[1..], me, seen + {p});
        HeadIsNewest(s);
        forall i, j | 0 <= i < j < |r|
          ensures r[i].lastMessage.createdAt >= r[j].lastMessage.createdAt
        {
          assert r[j] == rest[j - 1];
          if i > 0 {
            assert r[i] == rest[i - 1];
          } else {
            assert r[0].lastMessage == s[0];
            assert rest[j - 1].lastMessage in s[1..];
            assert r[j].lastMessage in s;
          }
        }
      } else {
        GroupOrder(s[1..], me, seen);
      }
    }
  }

  predicate InWindow(m: Message, me: Id, cutoff: int) {
    m.createdAt >= cutoff && (m.sender == me || m.receiver == me)
  }

  /** The caller exchanged a message with `p` inside the window. */
  predicate Talked(store: MessageStore, me: Id, cutoff: int, p: Id) {
    exists m :: m in store && InWindow(m, me, cutoff) && Partner(m, me) == p
  }

  /** `getRecentConversations`: the messages sent or received by the caller
      at or after `cutoff`, newest first, reduced to one entry per partner. */
  function RecentConversations(store: MessageStore, me: Id, cutoff: int): seq<Conversation> {
    var window := Filter(store, (m: Message) => InWindow(m, me, cutoff));
    GroupFrom(SortDesc(window, SentAt), me, {})
  }

  /** The sorted window holds exactly the messages in the window. */
  lemma SortedWindow(store: MessageStore, me: Id, cutoff: int)
    ensures var sorted := SortDesc(Filter(store, (m: Message) => InWindow(m, me, cutoff)), SentAt);
      && SortedDesc(sorted, SentAt)
      && forall m :: m in sorted <==> m in store && InWindow(m, me, cutoff)
  {
    var window := Filter(store, (m: Message) => InWindow(m, me, cutoff));
    var sorted := SortDesc(window, SentAt);
    forall m ensures m in sorted <==> m in window {
      assert m in sorted <==> multiset(sorted)[m] > 0;
      assert m in window <==> multiset(window)[m] > 0;
    }
  }

  /** One entry per distinct partner the caller exchanged a message with in
      the window, and each entry's message is such a message. */
  lemma RecentConversationsPartners(store: MessageStore, me: Id, cutoff: int)
    ensures var r := RecentConversations(store, me, cutoff);
      && (forall i, j :: 0 <= i < j < |r| ==> r[i].partner != r[j].partner)
      && (forall p :: HasPartner(r, p) <==> Talked(store, me, cutoff, p))
      && (forall i :: 0 <= i < |r| ==>
            && r[i].lastMessage in store && InWindow(r[i].lastMessage, me, cutoff)
            && Partner(r[i].lastMessage, me) == r[i].partner)
  {
    var sorted := SortDesc(Filter(store, (m: Message) => InWindow(m, me, cutoff)), SentAt);
    var r := GroupFrom(sorted, me, {});
    SortedWindow(store, me, cutoff);
    GroupCovers(sorted, me, {});
    forall p ensures HasPartner(r, p) <==> Talked(store, me, cutoff, p) {
      if HasPartner(r, p) {
        var i :| 0 <= i < |r| && r[i].partner == p;
        assert r[i].lastMessage in sorted;
      }
      if Talked(store, me, cutoff, p) {
        var m :| m in store && InWindow(m, me, cutoff) && Partner(m, me) == p;
        assert m in sorted;
      }
    }
  }

  /** Each entry holds the newest message exchanged with its partner in the
      window, and the entries run from the most recent conversation to the
      least. */
  lemma RecentConversationsNewest(store: MessageStore, me: Id, cutoff: int)
    ensures var r := RecentConversations(store, me, cutoff);
      && (forall i, m :: 0 <= i < |r| && m in store && InWindow(m, me, cutoff) && Partner(m, me) == r[i].partner ==>
            m.createdAt <= r[i].lastMessage.createdAt)
      && (forall i, j :: 0 <= i < j < |r| ==> r[i].lastMessage.createdAt >= r[j].lastMessage.createdAt)
  {
    var sorted := SortDesc(Filter(store, (m: Message) => InWindow(m, me, cutoff)), SentAt);
    SortedWindow(store, me, cutoff);
    SortedIsNewestFirst(sorted);
    GroupNewest(sorted, me, {});
    GroupOrder(sorted, me, {});
  }
}

=== FILE: notifications.dfy ===
/** The notification engine (controllers/notificationController.js) over the
    Notification collection (models/Notification.js). Every `io.emit` of a
    new notification is an event appended to an output log. */
module Notifications {
  import opened Base
  import opened Sorting
  import Settings
  import Dedup
  import Fanout

  /** A value carried into a notification document: an object id, text, a
      boolean or a number. */
  datatype Value = Ref(id: Id) | Text(text: string) | Flag(b: bool) | Num(n: int)

  /** A stored notification. `kind` is the schema path `type`; the last four
      optional paths are the only action-specific extras the schema keeps. */
  datatype Notification = Notification(
    id: Id,
    user: Id,
    sender: Id,
    kind: Option<Value>,
    message: Option<Value>,
    entityId: Option<Value>,
    entityType: Option<Value>,
    read: bool,
    createdAt: int,
    taskTitle: Option<Value>,
    title: Option<Value>,
    projectName: Option<Value>,
    newRole: Option<Value>)

  /** The Notification collection in natural order, with the next fresh id. */
  datatype NotificationStore = NotificationStore(docs: seq<Notification>, nextId: Id)

  /** Ids are distinct and all below the next fresh id. */
  predicate WellFormed(store: NotificationStore) {
    && (forall i :: 0 <= i < |store.docs| ==> store.docs[i].id < store.nextId)
    && (forall i, j :: 0 <= i < j < |store.docs| ==> store.docs[i].id != store.docs[j].id)
  }

  /** `io.emit('notification:new', n)`, a global broadcast. */
  datatype Event = NotificationNew(notification: Notification)

  // ---------------------------------------------------------------------
  // Creating a document
  // ---------------------------------------------------------------------

  /** The object handed to `Notification.create`, keyed by property name. */
  type Draft = map<string, Value>

  function Field(d: Draft, key: string): Option<Value> {
    if key in d then Some(d[key]) else None
  }

  /** A required object-id path is present and holds an id. */
  predicate HasRef(d: Draft, key: string) {
    key in d && d[key].Ref?
  }

  /** Schema validation: `user` and `sender` are both required. */
  predicate Valid(d: Draft) {
    HasRef(d, "user") && HasRef(d, "sender")
  }

  /** Mongoose's cast of a value to the Boolean path `read`: `true`, `1` and
      the strings "true", "1", "yes" give true; `false`, `0` and "false",
      "0", "no" give false; anything else is a cast error. */
  function CastBool(v: Value): Option<bool> {
    match v
    case Flag(b) => Some(b)
    case Num(n) => if n == 1 then Some(true) else if n == 0 then Some(false) else None
    case Text(t) =>
      if t == "true" || t == "1" || t == "yes" then Some(true)
      else if t == "false" || t == "0" || t == "no" then Some(false)
      else None
    case Ref(_) => None
  }

  /** The largest time value a JavaScript `Date` holds, in milliseconds
      either side of the epoch (section 21.4.1.1 of ECMA-262). */
  const MaxTime: int := 8_640_000_000_000_000

  /** Mongoose's cast of a value to the Date path `createdAt`: a number is a
      time in milliseconds, valid within the `Date` range; a boolean or an
      id is a cast error. */
  function CastDate(v: Value): Option<int> {
    match v
    case Num(n) => if -MaxTime <= n <= MaxTime then Some(n) else None
    case _ => None
  }

  /** Every value the document gives a typed path casts: `read` to a
      Boolean and `createdAt` to a date. */
  predicate Castable(d: Draft) {
    && ("read" in d ==> CastBool(d["read"]).Some?)
    && ("createdAt" in d ==> CastDate(d["createdAt"]).Some?)
  }

  /** The record keeps the document's value, or its absence, on each
      optional path of the schema. */
  predicate PathsFrom(n: Notification, d: Draft) {
    && n.kind == Field(d, "type")
    && n.message == Field(d, "message")
    && n.entityId == Field(d, "entityId")
    && n.entityType == Field(d, "entityType")
    && n.taskTitle == Field(d, "taskTitle")
    && n.title == Field(d, "title")
    && n.projectName == Field(d, "projectName")
    && n.newRole == Field(d, "newRole")
  }

  /** `Notification.create(d)`: fails unless `user` and `sender` are present
      and every typed path casts; keys outside the schema are dropped;
      `read` and `createdAt` take the document's values when it has them and
      the schema defaults `false` and `Date.now` otherwise. */
  function Build(d: Draft, id: Id, now: int): (r: Option<Notification>)
    ensures r.Some? <==> Valid(d) && Castable(d)
    ensures r.Some? ==> r.value.id == id
    ensures r.Some? && "read" in d ==> CastBool(d["read"]) == Some(r.value.read)
    ensures r.Some? && "read" !in d ==> !r.value.read
    ensures r.Some? && "createdAt" in d ==> CastDate(d["createdAt"]) == Some(r.value.createdAt)
    ensures r.Some? && "createdAt" !in d ==> r.value.createdAt == now
    ensures r.Some? ==> Ref(r.value.user) == d["user"] && Ref(r.value.sender) == d["sender"]
    ensures r.Some? ==> PathsFrom(r.value, d)
  {
    if !Valid(d) || !Castable(d) then None
    else
      var read := if "read" in d then CastBool(d["read"]).value else false;
      var createdAt := if "createdAt" in d then CastDate(d["createdAt"]).value else now;
      Some(Notification(
        id, d["user"].id, d["sender"].id,
        Field(d, "type"), Field(d, "message"), Field(d, "entityId"), Field(d, "entityType"),
        read, createdAt,
        Field(d, "taskTitle"), Field(d, "title"), Field(d, "projectName"), Field(d, "newRole")))
  }

  function Put(d: Draft, key: string, v: Option<Value>): (r: Draft)
    ensures r.Keys == if v.Some? then d.Keys + {key} else d.Keys
    ensures v.Some? ==> r[key] == v.value
    ensures forall k :: k in d && k != key ==> r[k] == d[k]
  {
    if v.Some? then d[key := v.value] else d
  }

  /** `{ user, type, message, entityId, entityType }`; undefined values are absent. */
  function BaseDraft(user: Id, kind: Option<Value>, message: Option<Value>,
                     entityId: Option<Value>, entityType: Option<Value>): (d: Draft)
    ensures d.Keys <= {"user", "type", "message", "entityId", "entityType"}
    ensures "sender" !in d && "read" !in d && "createdAt" !in d
    ensures "user" in d && d["user"] == Ref(user)
    ensures kind.Some? ==> "type" in d && d["type"] == kind.value
  {
    var d1 := Put(map["user" := Ref(user)], "type", kind);
    assert "user" in d1 && d1["user"] == Ref(user);
    var d2 := Put(d1, "message", message);
    assert "user" in d2 && d2["user"] == Ref(user);
    assert kind.Some? ==> "type" in d2 && d2["type"] == kind.value;
    var d3 := Put(d2, "entityId", entityId);
    assert "user" in d3 && d3["user"] == Ref(user);
    assert kind.Some? ==> "type" in d3 && d3["type"] == kind.value;
    Put(d3, "entityType", entityType)
  }

  /** The optional paths of the base document hold the call's values, or
      are absent when those are undefined. */
  lemma BaseDraftFields(user: Id, kind: Option<Value>, message: Option<Value>,
                        entityId: Option<Value>, entityType: Option<Value>)
    ensures var d := BaseDraft(user, kind, message, entityId, entityType);
      && Field(d, "type") == kind && Field(d, "message") == message
      && Field(d, "entityId") == entityId && Field(d, "entityType") == entityType
  {
  }

  /** The base document carries no sender and no action-specific path. */
  lemma BaseDraftAbsent(user: Id, kind: Option<Value>, message: Option<Value>,
                        entityId: Option<Value>, entityType: Option<Value>)
    ensures var d := BaseDraft(user, kind, message, entityId, entityType);
      && Field(d, "sender").None? && Field(d, "taskTitle").None? && Field(d, "title").None?
      && Field(d, "projectName").None? && Field(d, "newRole").None?
  {
    var keys: set<string> := {"user", "type", "message", "entityId", "entityType"};
    assert |"taskTitle"| == 9 && |"title"| == 5 && |"projectName"| == 11;
    assert "taskTitle" !in keys && "title" !in keys && "projectName" !in keys;
    assert "newRole"[0] == 'n' && "message"[0] == 'm';
    assert "newRole" !in keys;
  }

  /** Putting one key leaves every other key's field as it was. */
  lemma PutOther(d: Draft, key: string, v: Option<Value>, k: string)
    requires k != key
    ensures Field(Put(d, key, v), k) == Field(d, k)
  {
  }

  function Append(store: NotificationStore, n: Notification): NotificationStore {
    NotificationStore(store.docs + [n], store.nextId + 1)
  }

  lemma AppendWellFormed(store: NotificationStore, n: Notification)
    requires WellFormed(store) && n.id == store.nextId
    ensures WellFormed(Append(store, n))
  {
  }

  // ---------------------------------------------------------------------
  // createNotification: a two-stage gate, then one create
  // ---------------------------------------------------------------------

  /** A JavaScript value as the gate sees it: only `=== false` matters. */
  datatype JsValue = Absent | JsFalse | JsTrue | JsOther

  datatype MemberPref = MemberPref(memberId: Id, receiveNotifications: JsValue)

  /** The settings document `createNotification` reads, as loosely as the
      code reads it: four category values and optional per-member mutes. */
  datatype SettingsView = SettingsView(
    statusUpdates: JsValue,
    messages: JsValue,
    tasksAdded: JsValue,
    comments: JsValue,
    teamMemberPreferences: Option<seq<MemberPref>>)

  /** `pref` is the first entry of `prefs` that names `member`. */
  predicate FirstFor(prefs: seq<MemberPref>, member: Id, i: int) {
    && 0 <= i < |prefs|
    && prefs[i].memberId == member
    && forall j :: 0 <= j < i ==> prefs[j].memberId != member
  }

  /** `prefs.find(p => p.memberId === member)`. */
  function FindPreference(prefs: seq<MemberPref>, member: Id): (r: Option<MemberPref>)
    ensures r.None? <==> forall i :: 0 <= i < |prefs| ==> prefs[i].memberId != member
    ensures r.Some? ==> exists i :: FirstFor(prefs, member, i) && r.value == prefs[i]
  {
    if prefs == [] then None
    else if prefs[0].memberId == member then
      assert FirstFor(prefs, member, 0);
      Some(prefs[0])
    else
      var r := FindPreference(prefs[1..], member);
      if r.Some? then
        var k :| FirstFor(prefs[1..], member, k) && r.value == prefs[1..][k];
        assert FirstFor(prefs, member, k + 1);
        r
      else r
  }

  /** The recipient muted `fromUser`: the first entry for that member holds
      `receiveNotifications === false`. */
  predicate SenderMuted(settings: Option<SettingsView>, fromUser: Option<Id>) {
    && fromUser.Some?
    && settings.Some?
    && settings.value.teamMemberPreferences.Some?
    && match FindPreference(settings.value.teamMemberPreferences.value, fromUser.value)
       case None => false
       case Some(p) => p.receiveNotifications == JsFalse
  }

  /** The settings value the type gate consults for a notification type. */
  function TypeFlag(s: SettingsView, kind: Option<string>): JsValue {
    if kind == Some("status") then s.statusUpdates
    else if kind == Some("message") then s.messages
    else if kind == Some("task") then s.tasksAdded
    else if kind == Some("comment") then s.comments
    else Absent
  }

  predicate TypeDisabled(settings: Option<SettingsView>, kind: Option<string>) {
    settings.Some? && TypeFlag(settings.value, kind) == JsFalse
  }

  predicate GatePasses(settings: Option<SettingsView>, kind: Option<string>, fromUser: Option<Id>) {
    !SenderMuted(settings, fromUser) && !TypeDisabled(settings, kind)
  }

  /** The arguments of `createNotification`. */
  datatype CreateRequest = CreateRequest(
    user: Id,
    kind: Option<string>,
    message: Option<Value>,
    entityId: Option<Value>,
    entityType: Option<Value>,
    projectId: Id,
    fromUser: Option<Id>)

  /** The store and output log after a call, and the notification returned
      (None for the source's `null`). */
  datatype CreateOutcome = CreateOutcome(store: NotificationStore, events: seq<Event>, created: Option<Notification>)

  function KindValue(kind: Option<string>): Option<Value> {
    if kind.Some? then Some(Text(kind.value)) else None
  }

  /** Gate, then `Notification.create`; any failure is caught and yields null. */
  function CreateWith(store: NotificationStore, settings: Option<SettingsView>,
                      req: CreateRequest, d: Draft, now: int): CreateOutcome
  {
    if !GatePasses(settings, req.kind, req.fromUser) then CreateOutcome(store, [], None)
    else match Build(d, store.nextId, now)
      case None => CreateOutcome(store, [], None)
      case Some(n) => CreateOutcome(Append(store, n), [NotificationNew(n)], Some(n))
  }

  /** `createNotification` as written: the document it creates carries no
      `sender`, which the schema requires, so every call ends in the caught
      validation error: nothing is stored, nothing is emitted, null is returned. */
  function CreateNotification(store: NotificationStore, settings: Option<SettingsView>,
                              req: CreateRequest, now: int): (r: CreateOutcome)
    ensures r.store == store && r.events == [] && r.created.None?
  {
    var d := BaseDraft(req.user, KindValue(req.kind), req.message, req.entityId, req.entityType);
    CreateWith(store, settings, req, d, now)
  }

  /** `createNotification` with `sender: fromUser` added to the document:
      exactly one notification for the recipient when the gate passes and a
      sender is known, none otherwise. */
  function CreateNotificationWithSender(store: NotificationStore, settings: Option<SettingsView>,
                                        req: CreateRequest, now: int): (r: CreateOutcome)
    ensures r.created.Some? <==> GatePasses(settings, req.kind, req.fromUser) && req.fromUser.Some?
    ensures r.created.None? ==> r.store == store && r.events == []
    ensures r.created.Some? ==>
      && r.store == Append(store, r.created.value)
      && r.events == [NotificationNew(r.created.value)]
      && r.created.value.user == req.user
      && r.created.value.sender == req.fromUser.value
      && r.created.value.kind == KindValue(req.kind)
      && r.created.value.message == req.message
      && r.created.value.entityId == req.entityId
      && r.created.value.entityType == req.entityType
      && !r.created.value.read
      && r.created.value.createdAt == now
      && r.created.value.id == store.nextId
    ensures r.created.Some? ==>
      && r.created.value.taskTitle.None? && r.created.value.title.None?
      && r.created.value.projectName.None? && r.created.value.newRole.None?
  {
    SenderDraftFields(req);
    CreateWith(store, settings, req, SenderDraft(req), now)
  }

  /** The document `createNotification` evidently means to create: the base
      document with `sender: fromUser`. */
  function SenderDraft(req: CreateRequest): Draft {
    Put(BaseDraft(req.user, KindValue(req.kind), req.message, req.entityId, req.entityType),
        "sender", if req.fromUser.Some? then Some(Ref(req.fromUser.value)) else None)
  }

  /** That document validates exactly when a sender is known, always casts,
      and carries the call's values and none of the action-specific paths. */
  lemma SenderDraftFields(req: CreateRequest)
    ensures var d := SenderDraft(req);
      && Castable(d)
      && (Valid(d) <==> req.fromUser.Some?)
      && (Valid(d) ==> d["user"] == Ref(req.user) && d["sender"] == Ref(req.fromUser.value))
      && Field(d, "type") == KindValue(req.kind) && Field(d, "message") == req.message
      && Field(d, "entityId") == req.entityId && Field(d, "entityType") == req.entityType
      && Field(d, "taskTitle").None? && Field(d, "title").None?
      && Field(d, "projectName").None? && Field(d, "newRole").None?
  {
    var d0 := BaseDraft(req.user, KindValue(req.kind), req.message, req.entityId, req.entityType);
    BaseDraftFields(req.user, KindValue(req.kind), req.message, req.entityId, req.entityType);
    BaseDraftAbsent(req.user, KindValue(req.kind), req.message, req.entityId, req.entityType);
    var v := if req.fromUser.Some? then Some(Ref(req.fromUser.value)) else None;
    var d := SenderDraft(req);
    assert "user" in d && d["user"] == Ref(req.user);
    PutOther(d0, "sender", v, "type");
    PutOther(d0, "sender", v, "message");
    PutOther(d0, "sender", v, "entityId");
    PutOther(d0, "sender", v, "entityType");
    PutOther(d0, "sender", v, "taskTitle");
    PutOther(d0, "sender", v, "title");
    PutOther(d0, "sender", v, "projectName");
    PutOther(d0, "sender", v, "newRole");
  }

  /** A create with the sender recorded keeps ids distinct and fresh. */
  lemma CreateWithSenderWellFormed(store: NotificationStore, settings: Option<SettingsView>,
                                   req: CreateRequest, now: int)
    requires WellFormed(store)
    ensures WellFormed(CreateNotificationWithSender(store, settings, req, now).store)
  {
    var r := CreateNotificationWithSender(store, settings, req, now);
    if r.created.Some? {
      AppendWellFormed(store, r.created.value);
    }
  }

  /** The discrepancy: with no settings and a known sender the gate passes,
      yet the call as written stores nothing, while the same call with the
      sender recorded stores one notification. */
  lemma SenderlessCreateLost(store: NotificationStore, req: CreateRequest, now: int)
    requires req.fromUser.Some?
    ensures GatePasses(None, req.kind, req.fromUser)
    ensures CreateNotification(store, None, req, now).store == store
    ensures |CreateNotificationWithSender(store, None, req, now).store.docs| == |store.docs| + 1
  {
  }

  /** A recipient who muted the sender never receives that sender's
      notification; the same recipient still receives another member's. */
  lemma {:induction false} MuteIsPerSender(
    store: NotificationStore, settings: SettingsView, req: CreateRequest, other: Id, now: int)
    requires req.fromUser.Some? && settings.teamMemberPreferences.Some?
    requires exists i :: FirstFor(settings.teamMemberPreferences.value, req.fromUser.value, i)
                      && settings.teamMemberPreferences.value[i].receiveNotifications == JsFalse
    requires forall i :: 0 <= i < |settings.teamMemberPreferences.value| ==>
      settings.teamMemberPreferences.value[i].memberId != other
    requires TypeFlag(settings, req.kind) != JsFalse
    ensures CreateNotificationWithSender(store, Some(settings), req, now).created.None?
    ensures CreateNotificationWithSender(store, Some(settings), req.(fromUser := Some(other)), now).created.Some?
  {
    var prefs := settings.teamMemberPreferences.value;
    var i :| FirstFor(prefs, req.fromUser.value, i) && prefs[i].receiveNotifications == JsFalse;
    var p := FindPreference(prefs, req.fromUser.value);
    var k :| FirstFor(prefs, req.fromUser.value, k) && p.value == prefs[k];
    assert k == i;
    assert SenderMuted(Some(settings), req.fromUser);
  }

  /** Only an explicit `false` mutes: an absent entry, or an entry holding
      anything else, lets the notification through the mute check. */
  lemma {:induction false} OnlyFalseMutes(prefs: seq<MemberPref>, member: Id, i: int)
    requires FirstFor(prefs, member, i) && prefs[i].receiveNotifications != JsFalse
    ensures !SenderMuted(Some(SettingsView(Absent, Absent, Absent, Absent, Some(prefs))), Some(member))
  {
    var p := FindPreference(prefs, member);
    var k :| FirstFor(prefs, member, k) && p.value == prefs[k];
    assert k == i;
  }

  /** The type gate consults statusUpdates, messages, tasksAdded or comments
      for the types status, message, task and comment, suppresses only on an
      explicit `false`, and never suppresses any other type or when there
      are no settings. */
  lemma TypeGate(s: SettingsView, kind: Option<string>)
    ensures TypeDisabled(Some(s), Some("status")) <==> s.statusUpdates == JsFalse
    ensures TypeDisabled(Some(s), Some("message")) <==> s.messages == JsFalse
    ensures TypeDisabled(Some(s), Some("task")) <==> s.tasksAdded == JsFalse
    ensures TypeDisabled(Some(s), Some("comment")) <==> s.comments == JsFalse
    ensures kind !in {Some("status"), Some("message"), Some("task"), Some("comment")} ==>
      !TypeDisabled(Some(s), kind)
    ensures !TypeDisabled(None, kind)
  {
  }

  /** A stored NotificationSettings record seen through the gate: its
      category fields are arrays (never `false`) and it has no
      `teamMemberPreferences`. */
  function ViewOf(rec: Settings.SettingsRecord): SettingsView {
    SettingsView(JsOther, JsOther, JsOther, JsOther, None)
  }

  /** Against the stored schema the gate never suppresses anything. */
  lemma StoredSettingsNeverSuppress(rec: Settings.SettingsRecord, kind: Option<string>, fromUser: Option<Id>)
    ensures GatePasses(Some(ViewOf(rec)), kind, fromUser)
  {
  }

  // ---------------------------------------------------------------------
  // sendProjectNotifications: recipient resolution and fan-out
  // ---------------------------------------------------------------------

  /** The types whose recipients are the statusUpdates and tasksAdded lists together. */
  predicate SharedLists(kind: string) {
    kind == "statusUpdates" || kind == "tasksAdded"
  }

  /** The user ids a notification type reaches, as the code computes them.
      For statusUpdates and tasksAdded the two lists are put into a `Set`,
      but their elements are ObjectId objects, which a `Set` compares by
      reference, so no repeated id is dropped. */
  function Recipients(s: Settings.SettingsRecord, kind: string): seq<Id> {
    if SharedLists(kind) then s.statusUpdates + s.tasksAdded
    else if kind == "messages" then s.messages
    else if kind == "comments" then s.comments
    else []
  }

  /** The recipients the `Set` is evidently there to give: the union of the
      statusUpdates and tasksAdded lists with each id once, as comparing the
      ids by value would. Other types are unaffected. */
  function DedupedRecipients(s: Settings.SettingsRecord, kind: string): seq<Id> {
    if SharedLists(kind) then Dedup.Dedup(Recipients(s, kind)) else Recipients(s, kind)
  }

  /** Recipients by type as written: statusUpdates and tasksAdded reach both
      lists one after the other, with every occurrence of an id kept;
      messages and comments reach their own list as stored; any other type
      reaches nobody. */
  lemma RecipientsByType(s: Settings.SettingsRecord, kind: string)
    ensures SharedLists(kind) ==>
      forall u :: multiset(Recipients(s, kind))[u] == multiset(s.statusUpdates)[u] + multiset(s.tasksAdded)[u]
    ensures SharedLists(kind) ==> Recipients(s, kind)[..|s.statusUpdates|] == s.statusUpdates
    ensures kind == "messages" ==> Recipients(s, kind) == s.messages
    ensures kind == "comments" ==> Recipients(s, kind) == s.comments
    ensures !SharedLists(kind) && kind != "messages" && kind != "comments" ==> Recipients(s, kind) == []
  {
    if SharedLists(kind) {
      assert (s.statusUpdates + s.tasksAdded)[..|s.statusUpdates|] == s.statusUpdates;
    }
  }

  /** The corrected recipients reach the same users as the code, each once. */
  lemma DedupedRecipientsByType(s: Settings.SettingsRecord, kind: string)
    ensures SharedLists(kind) ==> Dedup.Distinct(DedupedRecipients(s, kind))
    ensures forall u :: u in DedupedRecipients(s, kind) <==> u in Recipients(s, kind)
    ensures !SharedLists(kind) ==> DedupedRecipients(s, kind) == Recipients(s, kind)
  {
    if SharedLists(kind) {
      Dedup.DedupElements(Recipients(s, kind));
    }
  }

  /** The arguments of `sendProjectNotifications`. `byUser` is accepted and
      never read. */
  datatype SendRequest = SendRequest(
    kind: string,
    message: Option<Value>,
    entityId: Option<Value>,
    entityType: Option<Value>,
    projectId: Id,
    byUser: Option<Id>,
    extra: Draft)

  /** The document created for one recipient: `extra` is spread last, so its
      keys override `user` and `type`. */
  function DraftFor(req: SendRequest, u: Id): Draft {
    BaseDraft(u, Some(Text(req.kind)), req.message, req.entityId, req.entityType) + req.extra
  }

  /** The create for recipient `u`, given the id it would receive: None when
      the document fails validation or the database refuses the write.
      Every create of a run gets its own id, so the id names the create:
      `rejected` holds the creates whose write is refused, and `clock(id)`
      is `Date.now` as that create reads it. */
  function Attempt(req: SendRequest, rejected: set<Id>, u: Id, id: Id, clock: Id -> int): Option<Notification> {
    if id in rejected then None else Build(DraftFor(req, u), id, clock(id))
  }

  /** The create `sendProjectNotifications` performs for one recipient. */
  function CreateFor(req: SendRequest, rejected: set<Id>, clock: Id -> int): (Id, Id) -> Option<Notification> {
    (u: Id, id: Id) => Attempt(req, rejected, u, id, clock)
  }

  /** One `notification:new` event per record, in creation order. */
  function Emitted(ns: seq<Notification>): (es: seq<Event>)
    ensures |es| == |ns|
    ensures forall i :: 0 <= i < |ns| ==> es[i] == NotificationNew(ns[i])
  {
    seq(|ns|, i requires 0 <= i < |ns| => NotificationNew(ns[i]))
  }

  /** The store and output log after a fan-out; `aborted` when a create threw
      and the remaining recipients were skipped. */
  datatype SendOutcome = SendOutcome(store: NotificationStore, events: seq<Event>, aborted: bool)

  /** Stores the records of a run after the existing documents and emits
      one event per record. */
  function Deliver(store: NotificationStore, run: Fanout.Run<Notification>): (r: SendOutcome)
    ensures var m := |store.docs|; var k := |run.created|;
      && |r.events| == k
      && m + k == |r.store.docs|
      && r.store.docs[..m] == store.docs
      && r.store.nextId == store.nextId + k
      && r.aborted == run.aborted
      && forall i :: 0 <= i < k ==>
           r.store.docs[m + i] == run.created[i] && r.events[i] == NotificationNew(run.created[i])
  {
    var docs := store.docs + run.created;
    assert docs[..|store.docs|] == store.docs;
    SendOutcome(NotificationStore(docs, store.nextId + |run.created|), Emitted(run.created), run.aborted)
  }

  /** `sendProjectNotifications`: without a settings record for the project
      nothing happens; otherwise the recipients the type resolves to get one
      record each, created and emitted in list order, until the first create
      that throws. */
  function SendProjectNotifications(store: NotificationStore, settings: Settings.SettingsStore,
                                    req: SendRequest, rejected: set<Id>, clock: Id -> int): (r: SendOutcome)
    ensures Settings.FindOne(settings, req.projectId).None? ==> r == SendOutcome(store, [], false)
    ensures var m := |store.docs|; var k := |r.events|;
      && m + k == |r.store.docs|
      && r.store.docs[..m] == store.docs
      && r.store.nextId == store.nextId + k
      && forall i :: 0 <= i < k ==> r.events[i] == NotificationNew(r.store.docs[m + i])
    ensures Settings.FindOne(settings, req.projectId).Some? ==>
      var us := Recipients(Settings.FindOne(settings, req.projectId).value, req.kind);
      var create := CreateFor(req, rejected, clock);
      var m := |store.docs|; var k := |r.events|;
      && k <= |us|
      && (r.aborted <==> k < |us|)
      && (forall i :: 0 <= i < k ==> create(us[i], store.nextId + i) == Some(r.store.docs[m + i]))
      && (r.aborted ==> Fanout.FailsAt(create, us, store.nextId, k))
  {
    match Settings.FindOne(settings, req.projectId)
    case None => SendOutcome(store, [], false)
    case Some(s) =>
      var us := Recipients(s, req.kind);
      var run := Fanout.FanOut(us, store.nextId, CreateFor(req, rejected, clock));
      var r := Deliver(store, run);
      assert |r.events| == |run.created|;
      assert forall i :: 0 <= i < |run.created| ==> r.store.docs[|store.docs| + i] == run.created[i];
      r
  }

  /** The value a path takes from the call's `value`, unless `extra`, spread
      last, carries the key. */
  function Overlaid(extra: Draft, key: string, value: Option<Value>): Option<Value> {
    if key in extra then Some(extra[key]) else value
  }

  /** What a successful create for one recipient stores: the given fresh
      id; the recipient as `user`, the call's type, message and entity as
      `type`, `message`, `entityId` and `entityType`, unread and stamped
      with that create's own clock reading, unless `extra` carries one of
      those keys, in which case the value from `extra`, cast, wins; the
      `sender` and the four action-specific paths come from `extra` alone. */
  predicate RecordFor(req: SendRequest, u: Id, id: Id, clock: Id -> int, n: Notification) {
    && n.id == id
    && ("read" !in req.extra ==> !n.read)
    && ("read" in req.extra ==> CastBool(req.extra["read"]) == Some(n.read))
    && ("createdAt" !in req.extra ==> n.createdAt == clock(id))
    && ("createdAt" in req.extra ==> CastDate(req.extra["createdAt"]) == Some(n.createdAt))
    && ("user" !in req.extra ==> n.user == u)
    && ("type" !in req.extra ==> n.kind == Some(Text(req.kind)))
    && ("user" in req.extra ==> Ref(n.user) == req.extra["user"])
    && ("type" in req.extra ==> n.kind == Some(req.extra["type"]))
    && n.message == Overlaid(req.extra, "message", req.message)
    && n.entityId == Overlaid(req.extra, "entityId", req.entityId)
    && n.entityType == Overlaid(req.extra, "entityType", req.entityType)
    && "sender" in req.extra && Ref(n.sender) == req.extra["sender"]
    && n.taskTitle == Field(req.extra, "taskTitle")
    && n.title == Field(req.extra, "title")
    && n.projectName == Field(req.extra, "projectName")
    && n.newRole == Field(req.extra, "newRole")
  }

  lemma AttemptRecord(req: SendRequest, rejected: set<Id>, u: Id, id: Id, clock: Id -> int)
    requires Attempt(req, rejected, u, id, clock).Some?
    ensures RecordFor(req, u, id, clock, Attempt(req, rejected, u, id, clock).value)
  {
    var d := DraftFor(req, u);
    var b := BaseDraft(u, Some(Text(req.kind)), req.message, req.entityId, req.entityType);
    assert "user" !in req.extra ==> d["user"] == b["user"];
    assert "type" !in req.extra ==> d["type"] == b["type"];
    assert "read" in d <==> "read" in req.extra;
    assert "createdAt" in d <==> "createdAt" in req.extra;
    DraftForFields(req, u);
  }

  /** The document for one recipient: `extra`, spread last, wins on every
      key it carries; the base document supplies the rest. */
  lemma DraftForFields(req: SendRequest, u: Id)
    ensures var d := DraftFor(req, u);
      && Field(d, "message") == Overlaid(req.extra, "message", req.message)
      && Field(d, "entityId") == Overlaid(req.extra, "entityId", req.entityId)
      && Field(d, "entityType") == Overlaid(req.extra, "entityType", req.entityType)
      && Field(d, "sender") == Field(req.extra, "sender")
      && Field(d, "taskTitle") == Field(req.extra, "taskTitle")
      && Field(d, "title") == Field(req.extra, "title")
      && Field(d, "projectName") == Field(req.extra, "projectName")
      && Field(d, "newRole") == Field(req.extra, "newRole")
  {
    BaseDraftFields(u, Some(Text(req.kind)), req.message, req.entityId, req.entityType);
    BaseDraftAbsent(u, Some(Text(req.kind)), req.message, req.entityId, req.entityType);
  }

  /** `ns` are the records for the first |ns| recipients of `us`, with ids
      counting up from `nextId`. */
  predicate RecordsFor(req: SendRequest, us: seq<Id>, nextId: Id, clock: Id -> int, ns: seq<Notification>) {
    |ns| <= |us| && forall k :: 0 <= k < |ns| ==> RecordFor(req, us[k], nextId + k, clock, ns[k])
  }

  /** Every record a fan-out run creates is the record for its recipient,
      with ids counting up from the one the run starts at. */
  lemma RunRecords(us: seq<Id>, nextId: Id, req: SendRequest, rejected: set<Id>, clock: Id -> int)
    ensures RecordsFor(req, us, nextId, clock, Fanout.FanOut(us, nextId, CreateFor(req, rejected, clock)).created)
  {
    var run := Fanout.FanOut(us, nextId, CreateFor(req, rejected, clock));
    forall k | 0 <= k < |run.created|
      ensures RecordFor(req, us[k], nextId + k, clock, run.created[k])
    {
      RunRecordAt(us, nextId, req, rejected, clock, k);
    }
  }

  lemma RunRecordAt(us: seq<Id>, nextId: Id, req: SendRequest, rejected: set<Id>, clock: Id -> int, k: nat)
    requires k < |Fanout.FanOut(us, nextId, CreateFor(req, rejected, clock)).created|
    ensures k < |us|
    ensures RecordFor(req, us[k], nextId + k, clock, Fanout.FanOut(us, nextId, CreateFor(req, rejected, clock)).created[k])
  {
    var create := CreateFor(req, rejected, clock);
    var n := Fanout.FanOut(us, nextId, create).created[k];
    assert create(us[k], nextId + k) == Some(n);
    CreateForRecord(req, rejected, clock, us[k], nextId + k, n);
  }

  lemma CreateForRecord(req: SendRequest, rejected: set<Id>, clock: Id -> int, u: Id, id: Id, n: Notification)
    requires CreateFor(req, rejected, clock)(u, id) == Some(n)
    ensures RecordFor(req, u, id, clock, n)
  {
    assert Attempt(req, rejected, u, id, clock) == Some(n);
    AttemptRecord(req, rejected, u, id, clock);
  }

  /** Every record a fan-out stores is the record for the recipient at the
      same position, with ids handed out in recipient order. */
  lemma SendRecords(store: NotificationStore, settings: Settings.SettingsStore,
                    req: SendRequest, rejected: set<Id>, clock: Id -> int)
    requires Settings.FindOne(settings, req.projectId).Some?
    ensures var r := SendProjectNotifications(store, settings, req, rejected, clock);
      var us := Recipients(Settings.FindOne(settings, req.projectId).value, req.kind);
      RecordsFor(req, us, store.nextId, clock, r.store.docs[|store.docs|..])
  {
    var us := Recipients(Settings.FindOne(settings, req.projectId).value, req.kind);
    var run := Fanout.FanOut(us, store.nextId, CreateFor(req, rejected, clock));
    RunRecords(us, store.nextId, req, rejected, clock);
    assert SendProjectNotifications(store, settings, req, rejected, clock).store.docs == store.docs + run.created;
    assert (store.docs + run.created)[|store.docs|..] == run.created;
  }

  /** Delivering records numbered on from the counter keeps ids distinct
      and fresh. */
  lemma DeliverWellFormed(store: NotificationStore, run: Fanout.Run<Notification>)
    requires WellFormed(store)
    requires forall k :: 0 <= k < |run.created| ==> run.created[k].id == store.nextId + k
    ensures WellFormed(Deliver(store, run).store)
  {
    var r := Deliver(store, run);
    var m := |store.docs|;
    forall i | 0 <= i < |r.store.docs|
      ensures r.store.docs[i].id < r.store.nextId
      ensures i < m ==> r.store.docs[i] == store.docs[i]
      ensures m <= i ==> r.store.docs[i].id == store.nextId + (i - m)
    {
      if i < m {
        assert r.store.docs[i] == r.store.docs[..m][i];
      } else {
        assert r.store.docs[i] == run.created[i - m];
      }
    }
  }

  /** A fan-out keeps the store's ids distinct and fresh. */
  lemma SendWellFormed(store: NotificationStore, settings: Settings.SettingsStore,
                       req: SendRequest, rejected: set<Id>, clock: Id -> int)
    requires WellFormed(store)
    ensures WellFormed(SendProjectNotifications(store, settings, req, rejected, clock).store)
  {
    match Settings.FindOne(settings, req.projectId)
    case None =>
    case Some(rec) =>
      var run := Fanout.FanOut(Recipients(rec, req.kind), store.nextId, CreateFor(req, rejected, clock));
      RunRecords(Recipients(rec, req.kind), store.nextId, req, rejected, clock);
      DeliverWellFormed(store, run);
  }

  /** Without a `sender` in `extra` every create fails validation, so the
      first recipient's failure aborts the fan-out and nothing is stored. */
  lemma NoSenderNoNotifications(store: NotificationStore, settings: Settings.SettingsStore,
                                req: SendRequest, rejected: set<Id>, clock: Id -> int)
    requires "sender" !in req.extra
    ensures SendProjectNotifications(store, settings, req, rejected, clock).store == store
    ensures SendProjectNotifications(store, settings, req, rejected, clock).events == []
  {
    var r := SendProjectNotifications(store, settings, req, rejected, clock);
    match Settings.FindOne(settings, req.projectId)
    case None =>
    case Some(s) =>
      var us := Recipients(s, req.kind);
      if us != [] {
        assert "sender" !in DraftFor(req, us[0]);
        assert CreateFor(req, rejected, clock)(us[0], store.nextId).None?;
      }
      assert r.store.docs == r.store.docs[..|store.docs|];
  }

  /** The actor is never excluded: `byUser` has no effect on the outcome. */
  lemma ByUserIgnored(store: NotificationStore, settings: Settings.SettingsStore,
                      req: SendRequest, actor: Option<Id>, rejected: set<Id>, clock: Id -> int)
    ensures SendProjectNotifications(store, settings, req.(byUser := actor), rejected, clock)
         == SendProjectNotifications(store, settings, req, rejected, clock)
  {
    var req' := req.(byUser := actor);
    forall u: Id, id: Id
      ensures CreateFor(req', rejected, clock)(u, id) == CreateFor(req, rejected, clock)(u, id)
    {
      assert DraftFor(req', u) == DraftFor(req, u);
    }
    match Settings.FindOne(settings, req.projectId)
    case None =>
    case Some(s) =>
      Fanout.FanOutExtensional(Recipients(s, req.kind), store.nextId,
                               CreateFor(req', rejected, clock), CreateFor(req, rejected, clock));
  }

  /** A `read` or `createdAt` in `extra` that does not cast makes the first
      create throw, so the fan-out stores nothing and emits nothing. */
  lemma UncastableNoNotifications(store: NotificationStore, settings: Settings.SettingsStore,
                                  req: SendRequest, rejected: set<Id>, clock: Id -> int)
    requires !Castable(req.extra)
    ensures SendProjectNotifications(store, settings, req, rejected, clock).store == store
    ensures SendProjectNotifications(store, settings, req, rejected, clock).events == []
  {
    var r := SendProjectNotifications(store, settings, req, rejected, clock);
    match Settings.FindOne(settings, req.projectId)
    case None =>
    case Some(s) =>
      var us := Recipients(s, req.kind);
      if us != [] {
        var d := DraftFor(req, us[0]);
        assert "read" in req.extra ==> d["read"] == req.extra["read"];
        assert "createdAt" in req.extra ==> d["createdAt"] == req.extra["createdAt"];
        assert !Castable(d);
        assert CreateFor(req, rejected, clock)(us[0], store.nextId).None?;
      }
      assert r.store.docs == r.store.docs[..|store.docs|];
  }

  /** `sendProjectNotifications` with the statusUpdates and tasksAdded ids
      compared by value: the same fan-out over the corrected recipients. */
  function SendProjectNotificationsDeduped(store: NotificationStore, settings: Settings.SettingsStore,
                                           req: SendRequest, rejected: set<Id>, clock: Id -> int): (r: SendOutcome)
    ensures Settings.FindOne(settings, req.projectId).None? ==> r == SendOutcome(store, [], false)
    ensures var m := |store.docs|; var k := |r.events|;
      && m + k == |r.store.docs|
      && r.store.docs[..m] == store.docs
      && r.store.nextId == store.nextId + k
    ensures Settings.FindOne(settings, req.projectId).Some? ==>
      var us := DedupedRecipients(Settings.FindOne(settings, req.projectId).value, req.kind);
      var create := CreateFor(req, rejected, clock);
      var m := |store.docs|; var k := |r.events|;
      && k <= |us|
      && (r.aborted <==> k < |us|)
      && (forall i :: 0 <= i < k ==> create(us[i], store.nextId + i) == Some(r.store.docs[m + i]))
      && (r.aborted ==> Fanout.FailsAt(create, us, store.nextId, k))
  {
    match Settings.FindOne(settings, req.projectId)
    case None => SendOutcome(store, [], false)
    case Some(s) =>
      var run := Fanout.FanOut(DedupedRecipients(s, req.kind), store.nextId, CreateFor(req, rejected, clock));
      Deliver(store, run)
  }

  /** No two notifications name the same user. */
  predicate DistinctUsers(ns: seq<Notification>) {
    forall a, b :: 0 <= a < b < |ns| ==> ns[a].user != ns[b].user
  }

  /** The corrected fan-out notifies each statusUpdates or tasksAdded
      recipient at most once: no two records it stores name the same user,
      unless `extra` overrides `user` for all of them. */
  lemma DedupedNotifiesOnce(store: NotificationStore, settings: Settings.SettingsStore,
                            req: SendRequest, rejected: set<Id>, clock: Id -> int)
    requires Settings.FindOne(settings, req.projectId).Some?
    requires SharedLists(req.kind) && "user" !in req.extra
    ensures DistinctUsers(SendProjectNotificationsDeduped(store, settings, req, rejected, clock).store.docs[|store.docs|..])
  {
    var rec := Settings.FindOne(settings, req.projectId).value;
    var us := DedupedRecipients(rec, req.kind);
    var run := Fanout.FanOut(us, store.nextId, CreateFor(req, rejected, clock));
    assert SendProjectNotificationsDeduped(store, settings, req, rejected, clock).store.docs == store.docs + run.created;
    assert (store.docs + run.created)[|store.docs|..] == run.created;
    DedupedRecipientsByType(rec, req.kind);
    forall a, b | 0 <= a < b < |run.created| ensures run.created[a].user != run.created[b].user {
      RunUsersDistinct(us, store.nextId, req, rejected, clock, a, b);
    }
  }

  /** Over distinct recipients, and with `user` left to the call, the records
      of a run name distinct users. */
  lemma RunUsersDistinct(us: seq<Id>, nextId: Id, req: SendRequest, rejected: set<Id>, clock: Id -> int, a: nat, b: nat)
    requires Dedup.Distinct(us) && "user" !in req.extra
    requires a < b < |Fanout.FanOut(us, nextId, CreateFor(req, rejected, clock)).created|
    ensures Fanout.FanOut(us, nextId, CreateFor(req, rejected, clock)).created[a].user
         != Fanout.FanOut(us, nextId, CreateFor(req, rejected, clock)).created[b].user
  {
    RunRecordAt(us, nextId, req, rejected, clock, a);
    RunRecordAt(us, nextId, req, rejected, clock, b);
  }

  /** The discrepancy: a user listed under both statusUpdates and tasksAdded
      receives two notifications from the code as written, and one from the
      corrected fan-out. */
  lemma DuplicateRecipientNotifiedTwice(store: NotificationStore, projectId: Id, u: Id, sender: Id, clock: Id -> int)
    ensures var settings := [Settings.SettingsRecord(projectId, [u], [u], [], [])];
      var req := SendRequest("statusUpdates", None, None, None, projectId, None, map["sender" := Ref(sender)]);
      && |SendProjectNotifications(store, settings, req, {}, clock).events| == 2
      && |SendProjectNotificationsDeduped(store, settings, req, {}, clock).events| == 1
  {
    var rec := Settings.SettingsRecord(projectId, [u], [u], [], []);
    var settings := [rec];
    var req := SendRequest("statusUpdates", None, None, None, projectId, None, map["sender" := Ref(sender)]);
    assert Settings.FindIndex(settings, projectId) == Some(0);
    assert Recipients(rec, req.kind) == [u, u];
    assert DedupedRecipients(rec, req.kind) == [u] by {
      assert [u, u][1..] == [u] && [u][1..] == [];
      assert {} + {u} == {u};
      assert Dedup.DedupFrom([u], {u}) == [];
      assert Dedup.DedupFrom([u, u], {}) == [u];
    }
    var create := CreateFor(req, {}, clock);
    assert Valid(DraftFor(req, u)) && Castable(DraftFor(req, u));
    assert create(u, store.nextId).Some? && create(u, store.nextId + 1).Some?;
    assert Fanout.FanOut([u, u], store.nextId, create).created
        == [create(u, store.nextId).value] + Fanout.FanOut([u], store.nextId + 1, create).created;
    assert Fanout.FanOut([u], store.nextId + 1, create).created
        == [create(u, store.nextId + 1).value] + Fanout.FanOut([], store.nextId + 2, create).created;
  }

  // ---------------------------------------------------------------------
  // Read side
  // ---------------------------------------------------------------------

  function CreatedAt(n: Notification): int {
    n.createdAt
  }

  /** `getNotifications`: `find({ user: caller }).sort({ createdAt: -1 })`. */
  function GetNotifications(store: NotificationStore, caller: Id): (r: seq<Notification>)
    ensures forall n :: n in r <==> n in store.docs && n.user == caller
    ensures forall n :: multiset(r)[n] == if n.user == caller then multiset(store.docs)[n] else 0
    ensures SortedDesc(r, CreatedAt)
  {
    var mine := Filter(store.docs, (n: Notification) => n.user == caller);
    var r := SortDesc(mine, CreatedAt);
    assert forall n :: multiset(r)[n] == multiset(mine)[n];
    forall n
      ensures multiset(r)[n] == if n.user == caller then multiset(store.docs)[n] else 0
    {
      FilterMultiset(store.docs, (n: Notification) => n.user == caller, n);
    }
    r
  }

  /** Position of the first document with the given id. */
  function FindById(docs: seq<Notification>, id: Id): (r: Option<nat>)
    ensures r.None? <==> forall i :: 0 <= i < |docs| ==> docs[i].id != id
    ensures r.Some? ==> r.value < |docs| && docs[r.value].id == id
    ensures r.Some? ==> forall j :: 0 <= j < r.value ==> docs[j].id != id
  {
    FindFirst(docs, (n: Notification) => n.id == id)
  }

  datatype MarkResult = MarkResult(store: NotificationStore, reply: Reply<Notification>)

  /** `markAsRead`: `findByIdAndUpdate(id, { read: true }, { new: true })`,
      404 when there is no such notification. */
  function MarkAsRead(store: NotificationStore, id: Id): (r: MarkResult)
    ensures r.reply.Fail? <==> forall i :: 0 <= i < |store.docs| ==> store.docs[i].id != id
    ensures r.reply.Fail? ==> r.store == store && r.reply == Fail(404, "Notification not found")
    ensures r.reply.Ok? ==> r.reply.status == 200 && r.reply.body.id == id && r.reply.body.read
    ensures r.store.nextId == store.nextId && |r.store.docs| == |store.docs|
    ensures forall i :: 0 <= i < |store.docs| ==>
      r.store.docs[i] == store.docs[i] || (store.docs[i].id == id && r.store.docs[i] == store.docs[i].(read := true))
    ensures WellFormed(store) ==> WellFormed(r.store)
    ensures WellFormed(store) ==> forall i :: 0 <= i < |store.docs| && store.docs[i].id == id ==>
      r.store.docs[i] == store.docs[i].(read := true) && r.reply == Ok(200, r.store.docs[i])
  {
    match FindById(store.docs, id)
    case None => MarkResult(store, Fail(404, "Notification not found"))
    case Some(i) =>
      var n := store.docs[i].(read := true);
      MarkResult(NotificationStore(store.docs[i := n], store.nextId), Ok(200, n))
  }

  /** Marking the same notification twice is the same as marking it once. */
  lemma MarkAsReadIdempotent(store: NotificationStore, id: Id)
    ensures MarkAsRead(MarkAsRead(store, id).store, id) == MarkAsRead(store, id)
  {
    var r := MarkAsRead(store, id);
    match FindById(store.docs, id)
    case None =>
    case Some(i) =>
      assert r.store.docs[i] == store.docs[i].(read := true);
      assert FindById(r.store.docs, id) == Some(i) by {
        forall j | 0 <= j < i ensures r.store.docs[j].id != id {
          assert r.store.docs[j] == store.docs[j];
        }
      }
      assert r.store.docs[i := r.store.docs[i].(read := true)] == r.store.docs;
  }
}

=== FILE: projects.dfy ===
/** Project creation, lookup, update and deletion
    (controllers/projectController.js). */
module Projects {
  import opened Base
  import Dedup

  /** A project document as the handlers read and write it: `members` and
      `team` are written by the handlers and the registration route. */
  datatype Project = Project(
    id: Id,
    name: Option<string>,
    description: Option<string>,
    owner: Id,
    members: seq<Id>,
    team: Option<Id>)

  /** The Project collection in natural order, with the next fresh id. */
  datatype ProjectStore = ProjectStore(docs: seq<Project>, nextId: Id)

  /** The request body of `createProject`. An `owner` in the body is ignored. */
  datatype ProjectBody = ProjectBody(
    name: Option<string>,
    description: Option<string>,
    members: Option<seq<Id>>,
    owner: Option<Id>)

  datatype ProjectResult = ProjectResult(store: ProjectStore, reply: Reply<Project>)

  /** The member list `createProject` stores: the owner first, then the
      body's members, without repeats. */
  function InitialMembers(owner: Id, members: Option<seq<Id>>): seq<Id> {
    Dedup.Dedup([owner] + members.GetOr([]))
  }

  /** Without a member list the owner is the only member. */
  lemma OwnerOnly(owner: Id, members: Option<seq<Id>>)
    ensures members.None? ==> InitialMembers(owner, members) == [owner]
  {
    if members.None? {
      var ms := InitialMembers(owner, members);
      assert [owner] + members.GetOr([]) == [owner];
      assert [owner][1..] == [];
      assert Dedup.DedupFrom([owner], {}) == [owner] + Dedup.DedupFrom([], {owner});
    }
  }

  /** `createProject`: the authenticated user owns the project and heads its
      de-duplicated member list; omitted members default to none. */
  function CreateProject(store: ProjectStore, caller: Id, body: ProjectBody): (r: ProjectResult)
    ensures r.reply.Ok? && r.reply.status == 201
    ensures r.reply.body.owner == caller
    ensures r.reply.body.id == store.nextId
    ensures r.store == ProjectStore(store.docs + [r.reply.body], store.nextId + 1)
    ensures |r.reply.body.members| >= 1 && r.reply.body.members[0] == caller
    ensures Dedup.Distinct(r.reply.body.members)
    ensures forall m :: m in r.reply.body.members <==> m == caller || m in body.members.GetOr([])
    ensures body.members.None? ==> r.reply.body.members == [caller]
  {
    var members := InitialMembers(caller, body.members);
    Dedup.DedupElements([caller] + body.members.GetOr([]));
    Dedup.DedupHead(caller, body.members.GetOr([]));
    OwnerOnly(caller, body.members);
    var p := Project(store.nextId, body.name, body.description, caller, members, None);
    ProjectResult(ProjectStore(store.docs + [p], store.nextId + 1), Ok(201, p))
  }

  /** The members of a created project keep the order in which they first
      occur in the owner-then-body list. */
  lemma CreatedMemberOrder(store: ProjectStore, caller: Id, body: ProjectBody)
    ensures var ms := CreateProject(store, caller, body).reply.body.members;
      var input := [caller] + body.members.GetOr([]);
      forall i, j :: 0 <= i < j < |ms| ==> Dedup.FirstIndex(input, ms[i]) < Dedup.FirstIndex(input, ms[j])
  {
    Dedup.DedupOrder([caller] + body.members.GetOr([]));
  }

  function FindProject(docs: seq<Project>, id: Id): (r: Option<nat>)
    ensures r.None? <==> forall i :: 0 <= i < |docs| ==> docs[i].id != id
    ensures r.Some? ==> r.value < |docs| && docs[r.value].id == id
    ensures r.Some? ==> forall j :: 0 <= j < r.value ==> docs[j].id != id
  {
    FindFirst(docs, (p: Project) => p.id == id)
  }

  const NotFound: string := "Project not found"

  /** `getProjectById`: the project, or 404 when the id names none. */
  function GetProject(store: ProjectStore, id: Id): (r: Reply<Project>)
    ensures r.Fail? <==> forall i :: 0 <= i < |store.docs| ==> store.docs[i].id != id
    ensures r.Fail? ==> r == Fail(404, NotFound)
    ensures r.Ok? ==> r.status == 200 && r.body in store.docs && r.body.id == id
  {
    match FindProject(store.docs, id)
    case None => Fail(404, NotFound)
    case Some(i) => Ok(200, store.docs[i])
  }

  /** The request body of `updateProject`; an omitted field is left alone. */
  datatype ProjectUpdate = ProjectUpdate(
    name: Option<string>,
    description: Option<string>,
    members: Option<seq<Id>>)

  function ApplyUpdate(p: Project, u: ProjectUpdate): Project {
    p.(name := if u.name.Some? then u.name else p.name,
       description := if u.description.Some? then u.description else p.description,
       members := u.members.GetOr(p.members))
  }

  /** `updateProject`: `findByIdAndUpdate(id, { name, description, members },
      { new: true })`, 404 when the id names no project. The member list is
      stored as given: neither de-duplicated nor forced to hold the owner. */
  function UpdateProject(store: ProjectStore, id: Id, u: ProjectUpdate): (r: ProjectResult)
    ensures r.reply.Fail? <==> forall i :: 0 <= i < |store.docs| ==> store.docs[i].id != id
    ensures r.store.nextId == store.nextId && |r.store.docs| == |store.docs|
    ensures forall i :: 0 <= i < |store.docs| && store.docs[i].id != id ==> r.store.docs[i] == store.docs[i]
    ensures r.reply.Fail? ==> r.store == store && r.reply == Fail(404, NotFound)
    ensures r.reply.Ok? ==>
      && r.reply.status == 200
      && r.reply.body.id == id
      && r.reply.body in r.store.docs
      && (u.members.Some? ==> r.reply.body.members == u.members.value)
      && (u.name.Some? ==> r.reply.body.name == u.name)
      && (u.description.Some? ==> r.reply.body.description == u.description)
      && (FindProject(store.docs, id).Some? ==>
            && r.reply.body.owner == store.docs[FindProject(store.docs, id).value].owner
            && r.store.docs[FindProject(store.docs, id).value] == r.reply.body)
  {
    match FindProject(store.docs, id)
    case None => ProjectResult(store, Fail(404, NotFound))
    case Some(i) =>
      var p := ApplyUpdate(store.docs[i], u);
      var docs := store.docs[i := p];
      assert docs[i] == p;
      ProjectResult(ProjectStore(docs, store.nextId), Ok(200, p))
  }

  datatype DeleteResult = DeleteResult(store: ProjectStore, reply: Reply<string>)

  /** `deleteProject`: removes the project, 404 when the id names none. */
  function DeleteProject(store: ProjectStore, id: Id): (r: DeleteResult)
    ensures r.reply.Fail? <==> forall i :: 0 <= i < |store.docs| ==> store.docs[i].id != id
    ensures r.reply.Fail? ==> r.store == store && r.reply == Fail(404, NotFound)
    ensures r.reply.Ok? ==>
      && r.reply == Ok(200, "Project deleted")
      && var i := FindProject(store.docs, id).value;
      && r.store == ProjectStore(RemoveAt(store.docs, i), store.nextId)
  {
    match FindProject(store.docs, id)
    case None => DeleteResult(store, Fail(404, NotFound))
    case Some(i) => DeleteResult(ProjectStore(RemoveAt(store.docs, i), store.nextId), Ok(200, "Project deleted"))
  }

  /** With distinct ids, a deleted project is gone and nothing else is. */
  lemma DeleteRemovesOnlyTarget(store: ProjectStore, id: Id)
    requires forall i, j :: 0 <= i < j < |store.docs| ==> store.docs[i].id != store.docs[j].id
    ensures forall p :: p in DeleteProject(store, id).store.docs <==> p in store.docs && p.id != id
  {
    var r := DeleteProject(store, id);
    match FindProject(store.docs, id)
    case None =>
    case Some(i) =>
      var docs := r.store.docs;
      forall p ensures p in docs <==> p in store.docs && p.id != id {
        assert p in docs <==> multiset(docs)[p] > 0;
        assert p in store.docs <==> multiset(store.docs)[p] > 0;
        if p in docs {
          var k :| 0 <= k < |docs| && docs[k] == p;
          if k < i { assert docs[k] == store.docs[k]; } else { assert docs[k] == store.docs[k + 1]; }
        }
      }
  }
}

=== FILE: roles.dfy ===
/** Project-scoped roles (models/ProjectUserRole.js) and their handlers
    (controllers/projectUserRoleController.js). */
module Roles {
  import opened Base

  /** A stored role: one of the schema's four enum values, or any other
      string. The upsert runs no validators, so the enum is never enforced
      on a write. */
  datatype Role = Admin | Editor | Commenter | Viewer | Other(name: string)

  /** The four spellings the schema's enum lists. */
  predicate InEnum(s: string) {
    s == "admin" || s == "editor" || s == "commenter" || s == "viewer"
  }

  /** A role is written in its one form: `Other` never holds an enum spelling. */
  predicate Canonical(r: Role) {
    r.Other? ==> !InEnum(r.name)
  }

  /** The string a role is stored as. */
  function RoleName(r: Role): string {
    match r
    case Admin => "admin"
    case Editor => "editor"
    case Commenter => "commenter"
    case Viewer => "viewer"
    case Other(name) => name
  }

  /** The role a request's role string denotes. */
  function ParseRole(s: string): (r: Role)
    ensures Canonical(r)
    ensures RoleName(r) == s
    ensures r.Other? <==> !InEnum(s)
  {
    if s == "admin" then Admin
    else if s == "editor" then Editor
    else if s == "commenter" then Commenter
    else if s == "viewer" then Viewer
    else Other(s)
  }

  /** Reading back the stored string gives the role that was written. */
  lemma ParseRoleName(r: Role)
    requires Canonical(r)
    ensures ParseRole(RoleName(r)) == r
  {
  }

  /** The enum default for an entry created without a role. */
  const DefaultRole: Role := Viewer

  /** One ProjectUserRole document; both ids are required paths. */
  datatype RoleEntry = RoleEntry(projectId: Id, userId: Id, role: Role)

  /** The ProjectUserRole collection in natural order. The schema declares
      no unique index on (projectId, userId). */
  type RoleStore = seq<RoleEntry>

  predicate Names(e: RoleEntry, projectId: Id, userId: Id) {
    e.projectId == projectId && e.userId == userId
  }

  /** One entry per (user, project) pair: kept only by the upserts that write
      the store, never by the schema. */
  predicate OnePerPair(store: RoleStore) {
    forall i, j :: 0 <= i < j < |store| ==>
      !(store[i].projectId == store[j].projectId && store[i].userId == store[j].userId)
  }

  /** A new entry, with the schema default when the role is omitted. */
  function NewEntry(projectId: Id, userId: Id, role: Option<string>): (e: RoleEntry)
    ensures Names(e, projectId, userId)
    ensures role.None? ==> e.role == Viewer
    ensures role.Some? ==> RoleName(e.role) == role.value
  {
    RoleEntry(projectId, userId, if role.Some? then ParseRole(role.value) else DefaultRole)
  }

  /** Position of the entry `findOne({ userId, projectId })` matches. */
  function FindPair(store: RoleStore, projectId: Id, userId: Id): (r: Option<nat>)
    ensures r.None? <==> forall i :: 0 <= i < |store| ==> !Names(store[i], projectId, userId)
    ensures r.Some? ==> r.value < |store| && Names(store[r.value], projectId, userId)
    ensures r.Some? ==> forall j :: 0 <= j < r.value ==> !Names(store[j], projectId, userId)
  {
    FindFirst(store, (e: RoleEntry) => Names(e, projectId, userId))
  }

  /** The role a lookup of (user, project) finds. */
  function RoleOf(store: RoleStore, projectId: Id, userId: Id): Option<Role> {
    match FindPair(store, projectId, userId)
    case None => None
    case Some(i) => Some(store[i].role)
  }

  datatype SetResult = SetResult(store: RoleStore, entry: RoleEntry)

  /** `setUserRole`: `findOneAndUpdate({ userId, projectId }, { role },
      { upsert: true, new: true })`. Any role string is stored as given;
      an omitted role leaves an existing entry as it is and gives a new
      entry the default. */
  function SetUserRole(store: RoleStore, projectId: Id, userId: Id, role: Option<string>): (r: SetResult)
    ensures Names(r.entry, projectId, userId)
    ensures role.Some? ==> RoleName(r.entry.role) == role.value
    ensures RoleOf(r.store, projectId, userId) == Some(r.entry.role)
    ensures FindPair(store, projectId, userId).None? ==>
      r.store == store + [r.entry] && r.entry == NewEntry(projectId, userId, role)
    ensures FindPair(store, projectId, userId).Some? ==>
      var i := FindPair(store, projectId, userId).value;
      && |r.store| == |store|
      && r.store[i] == r.entry
      && (role.None? ==> r.entry == store[i])
      && forall j :: 0 <= j < |store| && j != i ==> r.store[j] == store[j]
    ensures OnePerPair(store) ==> OnePerPair(r.store)
  {
    match FindPair(store, projectId, userId)
    case None =>
      var e := NewEntry(projectId, userId, role);
      var s := store + [e];
      assert s[|store|] == e;
      assert forall j :: 0 <= j < |store| ==> s[j] == store[j];
      assert FindPair(s, projectId, userId) == Some(|store|);
      SetResult(s, e)
    case Some(i) =>
      var e := if role.Some? then store[i].(role := ParseRole(role.value)) else store[i];
      var s := store[i := e];
      assert Names(s[i], projectId, userId);
      assert FindPair(s, projectId, userId) == Some(i) by {
        forall j | 0 <= j < i ensures !Names(s[j], projectId, userId) {
          assert s[j] == store[j];
        }
      }
      SetResult(s, e)
  }

  /** Setting a role leaves every other pair's lookup as it was. */
  lemma {:induction false} SetUserRoleOthers(store: RoleStore, projectId: Id, userId: Id, role: Option<string>,
                                             p: Id, u: Id)
    requires p != projectId || u != userId
    ensures RoleOf(SetUserRole(store, projectId, userId, role).store, p, u) == RoleOf(store, p, u)
  {
    var r := SetUserRole(store, projectId, userId, role);
    var s := r.store;
    assert !Names(r.entry, p, u);
    match FindPair(store, projectId, userId)
    case None =>
      assert s == store + [r.entry];
      SameLookup(store, s, p, u);
    case Some(i) =>
      assert forall j :: 0 <= j < |store| && j != i ==> s[j] == store[j];
      assert !Names(store[i], p, u);
      SameLookup(store, s, p, u);
  }

  /** Two stores that agree on which positions name a pair, and on the
      entry at the first such position, give the same lookup. */
  lemma SameLookup(a: RoleStore, b: RoleStore, p: Id, u: Id)
    requires |a| <= |b|
    requires forall j :: 0 <= j < |b| ==> (Names(b[j], p, u) <==> j < |a| && Names(a[j], p, u))
    requires forall j :: 0 <= j < |a| && Names(a[j], p, u) ==> b[j] == a[j]
    ensures RoleOf(b, p, u) == RoleOf(a, p, u)
  {
    match FindPair(a, p, u)
    case None =>
      assert FindPair(b, p, u).None?;
    case Some(k) =>
      assert FindPair(b, p, u) == Some(k);
  }

  /** Setting the same role twice is the same as setting it once. */
  lemma SetUserRoleIdempotent(store: RoleStore, projectId: Id, userId: Id, role: Option<string>)
    ensures var once := SetUserRole(store, projectId, userId, role);
      SetUserRole(once.store, projectId, userId, role) == once
  {
    var once := SetUserRole(store, projectId, userId, role);
    var i := FindPair(once.store, projectId, userId).value;
    assert once.store[i] == once.entry;
    assert once.store[i := once.entry] == once.store;
  }

  /** `removeUserRole`: `findOneAndDelete({ userId, projectId })` removes the
      first matching entry, if any, and the handler answers the same either way. */
  function RemoveUserRole(store: RoleStore, projectId: Id, userId: Id): (r: RoleStore)
    ensures FindPair(store, projectId, userId).None? ==> r == store
    ensures FindPair(store, projectId, userId).Some? ==>
      |r| == |store| - 1 && multiset(r) == multiset(store) - multiset{store[FindPair(store, projectId, userId).value]}
  {
    match FindPair(store, projectId, userId)
    case None => store
    case Some(i) => RemoveAt(store, i)
  }

  /** Under one entry per pair, removal leaves no entry for the pair. */
  lemma RemoveUserRoleClears(store: RoleStore, projectId: Id, userId: Id)
    requires OnePerPair(store)
    ensures RoleOf(RemoveUserRole(store, projectId, userId), projectId, userId).None?
  {
    var r := RemoveUserRole(store, projectId, userId);
    match FindPair(store, projectId, userId)
    case None =>
    case Some(i) =>
      assert r == RemoveAt(store, i);
      forall j | 0 <= j < |r| ensures !Names(r[j], projectId, userId) {
        if j < i {
          assert r[j] == store[j];
        } else {
          assert r[j] == store[j + 1];
        }
      }
  }

  /** Removal keeps every entry for another pair, and only those when there
      is one entry per pair. */
  lemma RemoveUserRoleKeepsOthers(store: RoleStore, projectId: Id, userId: Id)
    requires OnePerPair(store)
    ensures forall e :: e in RemoveUserRole(store, projectId, userId) <==> e in store && !Names(e, projectId, userId)
  {
    var r := RemoveUserRole(store, projectId, userId);
    RemoveUserRoleClears(store, projectId, userId);
    match FindPair(store, projectId, userId)
    case None =>
    case Some(i) =>
      forall e ensures e in r <==> e in store && !Names(e, projectId, userId) {
        assert e in r <==> multiset(r)[e] > 0;
        assert e in store <==> multiset(store)[e] > 0;
        if e in r {
          var k :| 0 <= k < |r| && r[k] == e;
          assert FindPair(r, projectId, userId).None?;
        }
      }
  }

  /** Removal keeps one entry per pair. */
  lemma RemoveUserRoleOnePerPair(store: RoleStore, projectId: Id, userId: Id)
    requires OnePerPair(store)
    ensures OnePerPair(RemoveUserRole(store, projectId, userId))
  {
    var r := RemoveUserRole(store, projectId, userId);
    match FindPair(store, projectId, userId)
    case None =>
    case Some(i) =>
      assert r == RemoveAt(store, i);
      forall a, b | 0 <= a < b < |r|
        ensures !(r[a].projectId == r[b].projectId && r[a].userId == r[b].userId)
      {
        var a' := if a < i then a else a + 1;
        var b' := if b < i then b else b + 1;
        assert r[a] == store[a'] && r[b] == store[b'];
      }
  }

  /** `getProjectRoles`: every entry of the project, in store order. */
  function GetProjectRoles(store: RoleStore, projectId: Id): (r: seq<RoleEntry>)
    ensures forall e :: e in r <==> e in store && e.projectId == projectId
    ensures forall e :: multiset(r)[e] == if e.projectId == projectId then multiset(store)[e] else 0
  {
    var r := Filter(store, (e: RoleEntry) => e.projectId == projectId);
    forall e ensures multiset(r)[e] == if e.projectId == projectId then multiset(store)[e] else 0 {
      FilterMultiset(store, (e: RoleEntry) => e.projectId == projectId, e);
    }
    r
  }

  /** Without one entry per pair, removal is not enough: when the pair has
      a second entry, a lookup after the removal finds that entry. */
  lemma RemoveUserRoleLeavesSecond(store: RoleStore, projectId: Id, userId: Id, i: nat, j: nat)
    requires FindPair(store, projectId, userId) == Some(i)
    requires i < j < |store| && Names(store[j], projectId, userId)
    requires forall k :: i < k < j ==> !Names(store[k], projectId, userId)
    ensures RoleOf(RemoveUserRole(store, projectId, userId), projectId, userId) == Some(store[j].role)
  {
    var r := RemoveUserRole(store, projectId, userId);
    assert r == RemoveAt(store, i);
    assert r[j - 1] == store[j];
    forall k | 0 <= k < j - 1 ensures !Names(r[k], projectId, userId) {
      if k < i {
        assert r[k] == store[k];
      } else {
        assert r[k] == store[k + 1];
      }
    }
    assert FindPair(r, projectId, userId) == Some(j - 1);
  }
}

=== FILE: settings.dfy ===
/** Per-project notification settings (models/NotificationSettings.js) and
    their two handlers (controllers/notificationSettingsController.js). */
module Settings {
  import opened Base

  /** One settings document: four independent opt-in lists of user ids.
      Being listed in a category is the opt-in for that category. */
  datatype SettingsRecord = SettingsRecord(
    projectId: Id,
    statusUpdates: seq<Id>,
    tasksAdded: seq<Id>,
    messages: seq<Id>,
    comments: seq<Id>)

  /** The NotificationSettings collection, in natural (insertion) order. */
  type SettingsStore = seq<SettingsRecord>

  /** The unique index on `projectId`: at most one record per project. */
  predicate OnePerProject(store: SettingsStore) {
    forall i, j :: 0 <= i < j < |store| ==> store[i].projectId != store[j].projectId
  }

  /** Position of the record `findOne({ projectId })` returns. */
  function FindIndex(store: SettingsStore, projectId: Id): (r: Option<nat>)
    ensures r.None? <==> forall i :: 0 <= i < |store| ==> store[i].projectId != projectId
    ensures r.Some? ==> r.value < |store| && store[r.value].projectId == projectId
    ensures r.Some? ==> forall j :: 0 <= j < r.value ==> store[j].projectId != projectId
  {
    FindFirst(store, (rec: SettingsRecord) => rec.projectId == projectId)
  }

  function FindOne(store: SettingsStore, projectId: Id): Option<SettingsRecord> {
    match FindIndex(store, projectId)
    case None => None
    case Some(i) => Some(store[i])
  }

  /** A record created from `{ projectId }` alone: every list defaults to empty. */
  function DefaultSettings(projectId: Id): SettingsRecord {
    SettingsRecord(projectId, [], [], [], [])
  }

  /** The store after a handler and the record it answers with. */
  datatype SettingsResult = SettingsResult(store: SettingsStore, settings: SettingsRecord)

  /** `getSettings`: the existing record, or a freshly created default one. */
  function GetSettings(store: SettingsStore, projectId: Id): (r: SettingsResult)
    ensures r.settings.projectId == projectId
    ensures r.settings in r.store
    ensures FindIndex(store, projectId).Some? ==>
      r.store == store && r.settings == store[FindIndex(store, projectId).value]
    ensures FindIndex(store, projectId).None? ==>
      r.store == store + [DefaultSettings(projectId)] && r.settings == DefaultSettings(projectId)
    ensures OnePerProject(store) ==> OnePerProject(r.store)
  {
    match FindIndex(store, projectId)
    case Some(i) => SettingsResult(store, store[i])
    case None => SettingsResult(store + [DefaultSettings(projectId)], DefaultSettings(projectId))
  }

  /** A second `getSettings` for the same project creates nothing and
      answers with the same record. */
  lemma GetSettingsIdempotent(store: SettingsStore, projectId: Id)
    ensures GetSettings(GetSettings(store, projectId).store, projectId) == GetSettings(store, projectId)
  {
    var r := GetSettings(store, projectId);
    if FindIndex(store, projectId).None? {
      assert r.store[|store|] == DefaultSettings(projectId);
      assert FindIndex(r.store, projectId) == Some(|store|);
    }
  }

  /** The request body of `updateSettings`: each list the body names. */
  datatype SettingsUpdate = SettingsUpdate(
    statusUpdates: Option<seq<Id>>,
    tasksAdded: Option<seq<Id>>,
    messages: Option<seq<Id>>,
    comments: Option<seq<Id>>)

  /** `$set` of the named lists onto a record. */
  function Apply(rec: SettingsRecord, u: SettingsUpdate): SettingsRecord {
    SettingsRecord(
      rec.projectId,
      u.statusUpdates.GetOr(rec.statusUpdates),
      u.tasksAdded.GetOr(rec.tasksAdded),
      u.messages.GetOr(rec.messages),
      u.comments.GetOr(rec.comments))
  }

  /** `rec` carries every list the update names, and `base`'s value for every other. */
  predicate Reflects(rec: SettingsRecord, base: SettingsRecord, u: SettingsUpdate) {
    && rec.projectId == base.projectId
    && (if u.statusUpdates.Some? then rec.statusUpdates == u.statusUpdates.value else rec.statusUpdates == base.statusUpdates)
    && (if u.tasksAdded.Some? then rec.tasksAdded == u.tasksAdded.value else rec.tasksAdded == base.tasksAdded)
    && (if u.messages.Some? then rec.messages == u.messages.value else rec.messages == base.messages)
    && (if u.comments.Some? then rec.comments == u.comments.value else rec.comments == base.comments)
  }

  /** `updateSettings`: `findOneAndUpdate({ projectId }, updates, { upsert: true, new: true })`. */
  function UpdateSettings(store: SettingsStore, projectId: Id, u: SettingsUpdate): (r: SettingsResult)
    ensures r.settings in r.store
    ensures FindIndex(store, projectId).Some? ==>
      |r.store| == |store| && Reflects(r.settings, store[FindIndex(store, projectId).value], u)
    ensures FindIndex(store, projectId).None? ==>
      r.store == store + [r.settings] && Reflects(r.settings, DefaultSettings(projectId), u)
    ensures forall i :: 0 <= i < |store| && store[i].projectId != projectId ==> r.store[i] == store[i]
    ensures OnePerProject(store) ==> OnePerProject(r.store)
    ensures OnePerProject(store) ==>
      forall i :: 0 <= i < |r.store| && r.store[i].projectId == projectId ==> r.store[i] == r.settings
  {
    match FindIndex(store, projectId)
    case Some(i) =>
      var rec := Apply(store[i], u);
      assert store[i := rec][i] == rec;
      SettingsResult(store[i := rec], rec)
    case None =>
      var rec := Apply(DefaultSettings(projectId), u);
      SettingsResult(store + [rec], rec)
  }

  /** Two stores that agree on which positions hold a project's record, and
      on those records, give the same lookup of that project. */
  lemma SameFind(a: SettingsStore, b: SettingsStore, q: Id)
    requires |a| <= |b|
    requires forall j :: 0 <= j < |b| ==> (b[j].projectId == q <==> j < |a| && a[j].projectId == q)
    requires forall j :: 0 <= j < |a| && a[j].projectId == q ==> b[j] == a[j]
    ensures FindOne(b, q) == FindOne(a, q)
  {
    match FindIndex(a, q)
    case None =>
      assert FindIndex(b, q).None?;
    case Some(k) =>
      assert FindIndex(b, q) == Some(k);
  }

  /** The first record of a project is the one `findOne` finds. */
  lemma FindIndexAt(store: SettingsStore, q: Id, k: nat)
    requires k < |store| && store[k].projectId == q
    requires forall j :: 0 <= j < k ==> store[j].projectId != q
    ensures FindIndex(store, q) == Some(k)
  {
  }

  /** After `updateSettings` a lookup of the project finds the returned record. */
  lemma UpdateSettingsOwnLookup(store: SettingsStore, projectId: Id, u: SettingsUpdate)
    ensures FindOne(UpdateSettings(store, projectId, u).store, projectId) == Some(UpdateSettings(store, projectId, u).settings)
  {
    var r := UpdateSettings(store, projectId, u);
    assert r.settings.projectId == projectId;
    match FindIndex(store, projectId)
    case Some(i) =>
      assert r.store == store[i := r.settings];
      FindIndexAt(r.store, projectId, i);
    case None =>
      assert r.store == store + [r.settings];
      FindIndexAt(r.store, projectId, |store|);
  }

  /** `updateSettings` leaves the lookup of every other project as it was. */
  lemma UpdateSettingsOtherLookup(store: SettingsStore, projectId: Id, u: SettingsUpdate, q: Id)
    requires q != projectId
    ensures FindOne(UpdateSettings(store, projectId, u).store, q) == FindOne(store, q)
  {
    var r := UpdateSettings(store, projectId, u);
    match FindIndex(store, projectId)
    case Some(i) =>
      assert r.store == store[i := r.settings];
      assert r.settings.projectId == projectId;
      SameFind(store, r.store, q);
    case None =>
      assert r.store == store + [r.settings];
      assert r.settings.projectId == projectId;
      SameFind(store, r.store, q);
  }

  /** After `updateSettings` the project's record is the one `findOne` sees,
      and every other project's lookup is unchanged. */
  lemma UpdateSettingsLookup(store: SettingsStore, projectId: Id, u: SettingsUpdate)
    ensures FindOne(UpdateSettings(store, projectId, u).store, projectId) == Some(UpdateSettings(store, projectId, u).settings)
    ensures forall q :: q != projectId ==>
      FindOne(UpdateSettings(store, projectId, u).store, q) == FindOne(store, q)
  {
    UpdateSettingsOwnLookup(store, projectId, u);
    forall q | q != projectId
      ensures FindOne(UpdateSettings(store, projectId, u).store, q) == FindOne(store, q)
    {
      UpdateSettingsOtherLookup(store, projectId, u, q);
    }
  }
}

=== FILE: sorting.dfy ===
/** The `.sort({ createdAt: ±1 })` of a query, as a stable insertion sort
    on an integer key. The database leaves the order of equal keys open;
    the model fixes it as input order. */
module Sorting {

  predicate SortedDesc<T>(s: seq<T>, key: T -> int) {
    forall i, j :: 0 <= i < j < |s| ==> key(s[i]) >= key(s[j])
  }

  predicate SortedAsc<T>(s: seq<T>, key: T -> int) {
    forall i, j :: 0 <= i < j < |s| ==> key(s[i]) <= key(s[j])
  }

  /** The first element of a descending sequence has the largest key. */
  lemma HeadLargest<T>(s: seq<T>, key: T -> int, y: T)
    requires SortedDesc(s, key) && s != [] && y in s
    ensures key(y) <= key(s[0])
  {
    var j :| 0 <= j < |s| && s[j] == y;
    if j > 0 {
      assert key(s[0]) >= key(s[j]);
    }
  }

  function InsertDesc<T>(x: T, s: seq<T>, key: T -> int): (r: seq<T>)
    requires SortedDesc(s, key)
    ensures SortedDesc(r, key)
    ensures forall y :: y in r ==> y == x || y in s
  {
    if s == [] then [x]
    else if key(x) >= key(s[0]) then [x] + s
    else
      assert s == [s[0]] + s[1..];
      var t := InsertDesc(x, s[1..], key);
      var r := [s[0]] + t;
      assert forall k :: 1 <= k < |r| ==> key(r[k]) <= key(s[0]) by {
        forall k | 1 <= k < |r| ensures key(r[k]) <= key(s[0]) {
          assert r[k] == t[k - 1] && t[k - 1] in t;
          if t[k - 1] != x {
            HeadLargest(s, key, t[k - 1]);
          }
        }
      }
      r
  }

  /** Inserting adds exactly the one element. */
  lemma {:induction false} InsertDescMultiset<T>(x: T, s: seq<T>, key: T -> int)
    requires SortedDesc(s, key)
    ensures multiset(InsertDesc(x, s, key)) == multiset(s) + multiset{x}
  {
    if s != [] && key(x) < key(s[0]) {
      assert s == [s[0]] + s[1..];
      InsertDescMultiset(x, s[1..], key);
    }
  }

  /** Newest-first order on `key`, as `.sort({ key: -1 })`. */
  function SortDesc<T>(s: seq<T>, key: T -> int): (r: seq<T>)
    ensures SortedDesc(r, key)
    ensures multiset(r) == multiset(s)
  {
    if s == [] then []
    else
      assert s == [s[0]] + s[1..];
      InsertDescMultiset(s[0], SortDesc(s[1..], key), key);
      InsertDesc(s[0], SortDesc(s[1..], key), key)
  }

  /** Oldest-first order on `key`, as `.sort({ key: 1 })`. */
  function SortAsc<T>(s: seq<T>, key: T -> int): (r: seq<T>)
    ensures SortedAsc(r, key)
    ensures multiset(r) == multiset(s)
  {
    var r := SortDesc(s, x => -key(x));
    assert forall i, j :: 0 <= i < j < |r| ==> -key(r[i]) >= -key(r[j]);
    r
  }
}
